=== FILE: README.md ===
# CurrencyRate in Dafny

This project models the core of CurrencyRate. CurrencyRate is a Symfony console application. It fetches the exchange rate of a currency against a base currency on a date, and the rate of the previous trading day. The rates come from the daily XML feed of the Central Bank of Russia.

The model covers four parts:

- **`CbrCurrencyRateProvider`** (modules `CbrProvider`, `RateCache`, `PhpNumbers`):
  - the cache key and the feed URL;
  - the lookup of a `Valute` node by its `CharCode`;
  - the decimal-comma parsing of `Value` and `Nominal`;
  - the cross rate against a base other than `RUR`;
  - the one-hour cache. Only successful rates are cached. Every failure is rethrown unchanged.
- **`CurrencyService`** (modules `CurrencyService`, `TradingDays`, `JobMessage`, `MessageBroker`):
  - `fetchExchangeRate`;
  - `getPreviousDate`, which steps back one day, then over Saturdays and Sundays;
  - `fetchRatesWithQueue`. It `json_encode`s the job, sends it to `exchange_rates_queue`, hands the oldest message of that queue to its handler (the `no_ack` consumer takes the rest too, and they are lost), decodes it, asks the provider for both rates and calls the callback.
- **`ExchangeRateResult`** (module `RateResult`).
- **`FetchExchangeRatesCommand`** (module `FetchCommand`):
  - the default base currency `RUR`;
  - `validateInput`;
  - the callback that prints the report;
  - the `execute` flow with its two `catch` blocks and its `SUCCESS` return.

PHP's split between `Exception` and `Error` is modelled explicitly (module `Failures`):

- `catch (Exception $e)` intercepts only the exceptions.
- A `TypeError` from a parameter type check passes through every `catch` block.
- A `DivisionByZeroError` from `/`, the `TypeError` of returning a float outside the `int` range from `parseNominal`, and the `ValueError` of `loadXML('')` pass through every `catch` block too.

The environment becomes parameters:

- The HTTP request plus XML parsing is a `Fetcher` function from URL to a request failure, an empty body, or the parsed `Valute` nodes.
- The cache adapter is a map and the clock an explicit `now`.
- The message broker is a map of FIFO queues.
- The rate provider is a function with its own state.
- "Today" is a parameter.
- The console output is a list of `Line` values.

The callback is represented by the list of results it received. "Called exactly once" is therefore a statement about that list's length.

Three defects of the source are modelled both as written and as intended (see "## Findings"):

- `CurrencyService.ArgumentOrder` selects between the order the service passes arguments to `getRate` and the order the interface declares.
- `FetchCommand.Checks` selects between the validation constraints as written and the checks their messages describe. This covers two defects: the trailing newline the currency pattern lets through, and the empty arguments the constraints accept.

`FetchCommand.Execute` takes both selectors. The command as written is `Execute(AsWritten, SourceOrder, …)`, and every input it accepts ends in a `TypeError` (`FetchCommand.AsWrittenAcceptedInputCrashes`). The command as intended is `Execute(Intended, InterfaceOrder, …)`.

## Model

| member | source | states |
|---|---|---|
| RateResult.ConstructorGetters | src/Model/ExchangeRateResult.php:29-58 | The getters return exactly the rates or the exception the constructor received; a result built from two rates has no exception |
| RateResult.GetRate | src/Model/ExchangeRateResult.php:39-42 | Reads the rate back as given to the constructor; declared non-nullable, so it is only defined for a result built from rates (see `RateResult.ConstructorGetters`) |
| RateResult.GetPreviousRate | src/Model/ExchangeRateResult.php:47-50 | Reads the previous rate back as given to the constructor, under the same condition (see `RateResult.ConstructorGetters`) |
| RateResult.GetException | src/Model/ExchangeRateResult.php:55-58 | Null unless the result was built from an exception, which it then returns (see `RateResult.ConstructorGetters` and `RateResult.RatesReadableIffNoException`) |
| RateResult.RatesReadableIffNoException | src/Model/ExchangeRateResult.php:39-58 | A result's rates can be read exactly when `getException()` is null |
| Calendar.PrevDay | src/Service/CurrencyService.php:63 | `modify('-1 day')` yields a valid date whose day number is one less |
| Calendar.IsoWeekday | src/Service/CurrencyService.php:65 | `format('N')` is an ISO weekday from 1 (Monday) to 7 (Sunday); `Calendar.PrevDayWeekday` shows how it steps back day by day |
| Calendar.PrevDayWeekday | src/Service/CurrencyService.php:65 | Stepping back one day lowers the ISO weekday `N` by one, Monday wrapping to Sunday |
| TradingDays.SkipWeekendBack | src/Service/CurrencyService.php:65-67 | The loop ends on a weekday; it steps back 2 days from a Sunday, 1 from a Saturday and 0 otherwise, passing only weekend days |
| TradingDays.GetPreviousDate | src/Service/CurrencyService.php:60-70 | The previous trading day is a weekday 1 to 3 days before the date, and every day strictly between them is a Saturday or Sunday |
| TradingDays.LatestWeekdayBefore | src/Service/CurrencyService.php:60-70 | No weekday is skipped: every weekday before the date is on or before the result |
| TradingDays.PreviousDateByWeekday | src/Service/CurrencyService.php:60-70 | Monday goes back 3 days to Friday; Tuesday to Friday go back 1 day; Saturday goes back 1 day and Sunday 2 days, both to Friday |
| TradingDays.MondayExample | src/Service/CurrencyService.php:60-70 | Monday 2024-03-11 gives Friday 2024-03-08 |
| TradingDays.NewYearExample | src/Service/CurrencyService.php:60-70 | Saturday 2022-01-01 gives Friday 2021-12-31, across the year boundary |
| DateFormat.FormatYear | src/Service/CurrencyService.php:82 | `Y` writes a year from 0 as at least four digits whose value is the year (exactly four up to 9999), and a negative year as `-` followed by the digits of its magnitude |
| DateFormat.FormatDmy | src/Service/CurrencyService.php:82 | `format('d.m.Y')` writes the day and the month as two digits each, read back as their values, separated by dots and followed by the `Y` text of the year |
| DateFormat.FormatYmd | src/Provider/CbrCurrencyRateProvider.php:99 | `format('Ymd')` is the `Y` text of the year followed by two digits for the month and two for the day, read back as their values |
| DateFormat.FormatIsoDate | src/Command/FetchExchangeRatesCommand.php:100 | `format('Y-m-d')` is the `Y` text of the year, a dash, two digits for the month, a dash and two digits for the day |
| DateFormat.FormatDmyExample | src/Service/CurrencyService.php:82 | 2022-01-01 is written `01.01.2022` |
| DateFormat.ParseDmy | src/Command/FetchExchangeRatesCommand.php:88 | Text that `createFromFormat('d.m.Y')` accepts, and the date constraint does not flag, denotes a real calendar date |
| DateFormat.ParseFormatDmy | src/Service/CurrencyService.php:82-95 | The consumer's `createFromFormat('d.m.Y')` reads back exactly the date the producer wrote with `format('d.m.Y')` |
| DateFormat.FormatYearInjective | src/Service/CurrencyService.php:82 | The `Y` text of a year (four digits at least, `-` before a negative year) determines the year |
| DateFormat.FormatDmyInjective | src/Service/CurrencyService.php:82 | Distinct dates give distinct `d.m.Y` texts |
| DateFormat.FormatYmdInjective | src/Provider/CbrCurrencyRateProvider.php:99 | Distinct dates give distinct `Ymd` texts |
| DateFormat.FormatIsoDateInjective | src/Command/FetchExchangeRatesCommand.php:100 | Distinct dates give distinct `Y-m-d` texts in the report |
| PhpNumbers.CommaToDot | src/Provider/CbrCurrencyRateProvider.php:193 | `str_replace(',', '.', …)` keeps the length, turns every comma into a dot and leaves every other character unchanged |
| PhpNumbers.FloatCast | src/Provider/CbrCurrencyRateProvider.php:193 | The `(float)` cast is negative only when the text, after leading whitespace, starts with `-`; its value on feed numbers is given by `PhpNumbers.DecimalCommaValue` and `PhpNumbers.IntegerTextValue` |
| PhpNumbers.TruncateToInt | src/Provider/CbrCurrencyRateProvider.php:207 | PHP's float-to-int conversion truncates toward zero: the result is the whole number next to the value on the side of zero; `PhpNumbers.TruncationTowardZero` shows it is symmetric and keeps whole numbers |
| PhpNumbers.TruncationTowardZero | src/Provider/CbrCurrencyRateProvider.php:207 | Truncating `-x` gives the negation of truncating `x`, and a whole number truncates to itself |
| PhpNumbers.ReturnAsInt | src/Provider/CbrCurrencyRateProvider.php:201-208 | A float returned where `int` is declared, without `strict_types`, is truncated toward zero exactly when it lies from `PHP_INT_MIN` up to, but excluding, 2^63; otherwise a `TypeError` is raised |
| PhpNumbers.DecimalCommaValue | src/Provider/CbrCurrencyRateProvider.php:193 | A feed number `digits,digits` reads as its whole part plus its decimal fraction |
| PhpNumbers.DecimalPrefixValue | src/Provider/CbrCurrencyRateProvider.php:193 | After the comma becomes a dot, `digits.digits` reads as its whole part plus its decimal fraction |
| PhpNumbers.IntegerTextValue | src/Provider/CbrCurrencyRateProvider.php:207 | A feed number made of digits alone reads as that integer |
| RateCache.CacheRate | src/Provider/CbrCurrencyRateProvider.php:108-115 | The rate is stored under its key as a hit that expires `RATE_CACHE_TTL` (3600) seconds from now; every other key keeps its entry |
| RateCache.GetOrCompute | src/Provider/CbrCurrencyRateProvider.php:64-78 | A hit returns the stored rate and computes nothing. A miss computes; only a success is stored, for the TTL. A failure leaves the cache unchanged. Other keys are never touched |
| RateCache.ComputeAtMostOnceWithinTtl | src/Provider/CbrCurrencyRateProvider.php:64-78 | Two lookups of a key within the TTL of a successful first one compute at most once, and both return the same rate |
| RateCache.ExpiredEntryRecomputed | src/Provider/CbrCurrencyRateProvider.php:66-70 | An expired entry is never returned; the rate is computed afresh |
| CbrProvider.CreateCacheKey | src/Provider/CbrCurrencyRateProvider.php:97-100 | The key starts with `rate_`; with three-letter codes, the currency, the base and the `Ymd` date sit at fixed offsets (see `CbrProvider.CacheKeyInjective`) |
| CbrProvider.CacheKeyInjective | src/Provider/CbrCurrencyRateProvider.php:97-100 | Distinct (currency, base, date) queries with three-letter codes get distinct cache keys |
| CbrProvider.CreateUrl | src/Provider/CbrCurrencyRateProvider.php:162-165 | The URL is `CBR_DAILY_URL` up to its placeholder followed by the date as `d.m.Y` |
| CbrProvider.CreateUrlCarriesDate | src/Provider/CbrCurrencyRateProvider.php:162-165 | For years 0 to 9999, the date can be read back from the URL, so each day has its own request |
| CbrProvider.FirstMatch | src/Provider/CbrCurrencyRateProvider.php:175 | The XPath query's first node is the earliest `Valute` with that `CharCode`; there is none exactly when no node has it |
| CbrProvider.FindCurrencyCodeNode | src/Provider/CbrCurrencyRateProvider.php:173-180 | Yields the first matching node, and fails with "Currency node not found: code" exactly when there is none |
| CbrProvider.ParseExchangeRate | src/Provider/CbrCurrencyRateProvider.php:187-194 | Fails with "Rate value not found" exactly when the node has no `Value` |
| CbrProvider.ParseNominal | src/Provider/CbrCurrencyRateProvider.php:201-208 | Fails with "Nominal value not found" exactly when the node has no `Nominal`. Otherwise it succeeds exactly when the number fits PHP's `int`, and raises a `TypeError` when it does not |
| CbrProvider.HugeNominalIsTypeError | src/Provider/CbrCurrencyRateProvider.php:147-153 | A base `Nominal` of 2^63 or more makes a cross-rate lookup fail with a `TypeError`, which is not an exception |
| CbrProvider.Divide | src/Provider/CbrCurrencyRateProvider.php:152 | PHP's `/` yields the quotient when the divisor is not zero, and raises `DivisionByZeroError` exactly when it is zero |
| CbrProvider.CrossQuotient | src/Provider/CbrCurrencyRateProvider.php:152 | The cross-rate expression succeeds exactly when the base value and the target nominal are both non-zero; otherwise it raises `DivisionByZeroError` |
| CbrProvider.RateFromDocument | src/Provider/CbrCurrencyRateProvider.php:139-155 | Against `RUR` the lookup succeeds exactly when the currency's first node has a `Value`; against another base a success needs nodes for both codes (the value is given by `CbrProvider.CrossRate`, the failures by `CbrProvider.DocumentFailures`) |
| CbrProvider.FindRateInXml | src/Provider/CbrCurrencyRateProvider.php:124-140 | A failed request for the date's URL is rethrown. An empty body makes `loadXML` raise a `ValueError`, which is not an exception. Otherwise the rate is read from the parsed document |
| CbrProvider.GetRate | src/Provider/CbrCurrencyRateProvider.php:61-89 | A live entry under `rate_<cur>_<base>_<Ymd>` is returned with no request. A miss requests the date's URL once. A successful rate is cached for an hour. Failures are rethrown and the cache is left as it was |
| CbrProvider.AbsentCurrencyNotFound | src/Provider/CbrCurrencyRateProvider.php:143 | A currency missing from the feed gives "Currency node not found", never a rate |
| CbrProvider.NativeBaseIsQuotedValue | src/Provider/CbrCurrencyRateProvider.php:145-155 | Against `RUR` the rate is the first matching node's `Value`, whatever its nominal |
| CbrProvider.CrossRate | src/Provider/CbrCurrencyRateProvider.php:147-153 | Against another base, when both nodes parse and no divisor is zero, the rate is `(value / baseValue) * (baseNominal / nominal)` |
| CbrProvider.CrossQuotientValue | src/Provider/CbrCurrencyRateProvider.php:152 | With non-zero divisors the expression evaluates to `(value / baseValue) * (baseNominal / nominal)` |
| CbrProvider.PerUnitQuotient | src/Provider/CbrCurrencyRateProvider.php:152 | The cross-rate formula equals the target's per-unit rate divided by the base's per-unit rate |
| CbrProvider.SameCurrencyRateIsOne | src/Provider/CbrCurrencyRateProvider.php:147-153 | A currency other than `RUR` quoted against itself has rate 1 |
| CbrProvider.ZeroDivisorIsNotAnException | src/Provider/CbrCurrencyRateProvider.php:152 | A zero base value or a zero nominal raises `DivisionByZeroError`, which no `catch (Exception $e)` intercepts |
| CbrProvider.DocumentFailures | src/Provider/CbrCurrencyRateProvider.php:143-153 | A document lookup fails only in one of these ways: "Currency node not found" for the currency or the base, "Rate value not found", "Nominal value not found", a `TypeError` for a `Nominal` outside the `int` range, or a division by zero |
| CbrProvider.EuroAgainstDollarExample | src/Provider/CbrCurrencyRateProvider.php:147-153 | USD at "75,00" and EUR at "85,00", both per one unit, give EUR against USD as 85/75 |
| CbrProvider.QuotedPerUnit | src/Provider/CbrCurrencyRateProvider.php:187-208 | A node with `Value` "NN,00" and `Nominal` "1" parses to NN and 1 |
| CbrProvider.TwoDigitQuote | src/Provider/CbrCurrencyRateProvider.php:193 | The text "NN,00" converts to the number NN |
| CbrProvider.CacheHitSkipsFetch | src/Provider/CbrCurrencyRateProvider.php:64-68 | A cache hit returns the stored rate, requests nothing and leaves the cache unchanged |
| CbrProvider.FailureNotCached | src/Provider/CbrCurrencyRateProvider.php:70-87 | A failed lookup was a miss, propagates the feed lookup's error and leaves the cache as it was |
| CbrProvider.RepeatWithinTtlServedFromCache | src/Provider/CbrCurrencyRateProvider.php:64-78 | After a successful miss, asking again within the hour requests nothing and returns the same rate |
| JobMessage.EncodeJob | src/Service/CurrencyService.php:81-85 | `json_encode` of the job: the members `date`, `currency`, `base_currency` in that order, without whitespace; `JobMessage.DecodeEncodeJob` reads it back |
| JobMessage.Escape | src/Service/CurrencyService.php:81-85 | `json_encode`'s string escaping with default flags writes at least one character per input character and only ASCII (non-ASCII becomes `\uxxxx`); `JobMessage.ReadEscapedString` shows the escaping is undone on decoding |
| JobMessage.DecodeJob | src/Service/CurrencyService.php:93-97 | `json_decode` of the job body, for the layout `json_encode` writes; `JobMessage.DecodeEncodeJob` shows it inverts `JobMessage.EncodeJob` |
| JobMessage.ReadEscapedChar | src/Service/CurrencyService.php:81-93 | `json_decode` reads every character `json_encode` escapes back as that character |
| JobMessage.ReadEscapedString | src/Service/CurrencyService.php:81-93 | Any string `json_encode`d as a JSON string literal is read back unchanged, along with the text that follows it |
| JobMessage.ReadMemberOf | src/Service/CurrencyService.php:81-93 | One encoded object member is read back as its value, along with the text that follows it |
| JobMessage.DecodeEncodeJob | src/Service/CurrencyService.php:81-97 | The consumer decodes the producer's message into the same date text, currency and base currency, whatever characters they hold |
| JobMessage.PlainTextUnescaped | src/Service/CurrencyService.php:83-84 | Upper-case currency codes are written into the JSON unescaped |
| JobMessage.DateTextUnescaped | src/Service/CurrencyService.php:82 | The `d.m.Y` date text is written into the JSON unescaped |
| MessageBroker.Send | src/Service/RabbitMQMessageBrokerService.php:41-47 | Publishing appends the message to its queue and leaves every other queue unchanged |
| MessageBroker.Deliver | src/Service/RabbitMQMessageBrokerService.php:54-76 | The oldest message goes to the callback. The `no_ack` consumer also receives every message behind it, and those are lost. The queue ends empty, and other queues are unchanged |
| MessageBroker.SendThenDeliver | src/Service/RabbitMQMessageBrokerService.php:41-76 | Into an empty queue, the message sent is the one handled, and nothing is lost |
| CurrencyService.InvokeGetRate | src/Provider/RatesProviderInterface.php:15 | The provider runs exactly when the arguments match the declared `(DateTime, string, string)`; otherwise a `TypeError` is raised and the state is unchanged |
| CurrencyService.FetchExchangeRate | src/Service/CurrencyService.php:51-54 | The base currency defaults to `RUR` when left out. In the interface's order it is exactly one provider call on (date, currency, base); in the written order the provider never runs and a `TypeError` results |
| CurrencyService.FetchExchangeRateExample | tests/Unit/Service/CurrencyServiceTest.php:35-51 | Called without a base on 2022-01-01 for USD, the provider is asked once for USD against `RUR`, and its 73.123 is returned |
| CurrencyService.Catch | src/Service/CurrencyService.php:104-106 | An exception becomes one failed result for the callback; any other error escapes with no callback |
| CurrencyService.HandleJob | src/Service/CurrencyService.php:99-106 | The callback runs at most once. It runs exactly when nothing escapes, and only non-exception errors escape |
| CurrencyService.HandleMessage | src/Service/CurrencyService.php:91-107 | The same for any consumed body. A body that does not decode to the three fields, or whose date `createFromFormat` rejects, raises a `TypeError` before the provider runs: no call, no callback, state unchanged |
| CurrencyService.FetchRatesWithQueue | src/Service/CurrencyService.php:79-109 | Exactly one message, the encoded job, is published to `exchange_rates_queue`. The oldest message of that queue is delivered and its handling is the outcome: provider state, calls, callback invocations and escaped error. The rest are lost, and the queue ends empty. Other queues are unchanged. The callback runs at most once, and exactly once unless a non-exception error escapes |
| CurrencyService.HandleOwnMessage | src/Service/CurrencyService.php:81-97 | Handling the encoded job is handling the original date, currency and base |
| CurrencyService.OwnJobRoundTrip | src/Service/CurrencyService.php:79-109 | With the queue empty beforehand, the message handled is the caller's own job, nothing is lost, and the outcome is that of handling the job |
| CurrencyService.OldestJobConsumedFirst | src/Service/CurrencyService.php:89-108 | A message left in the queue earlier is handled instead of the caller's, and the outcome is that message's handling. The caller's job is delivered behind it and lost, never handled |
| CurrencyService.HandleJobOutcome | src/Service/CurrencyService.php:99-106 | The rate is asked for on the date, then on the previous trading day with the same codes. Two successes reach the callback as both rates, and an exception from either call reaches it as a failed result |
| CurrencyService.CallbackExactlyOnce | src/Service/CurrencyService.php:91-107 | In the interface's order, with a provider that throws only exceptions and an empty queue, the callback runs exactly once and nothing escapes |
| CurrencyService.SourceOrderNeverCallsBack | src/Service/CurrencyService.php:99-101 | As written, the provider never runs, a `TypeError` escapes the handler and the callback is never invoked |
| CurrencyService.QueueRoundTripExample | tests/Unit/Service/CurrencyServiceTest.php:57-90 | With the test's provider answer 73.123 for 2022-01-01, plus an answer of 72.123 for 2021-12-31 taken as a precondition, the message published is the JSON text the test expects, and the callback receives the `ExchangeRateResult(73.123, 72.123)` the test expects |
| CurrencyService.EncodeJobExample | tests/Unit/Service/CurrencyServiceTest.php:69-71 | The job for 2022-01-01, USD, RUR encodes to the JSON text the test expects |
| CurrencyService.EncodeJobOfUnescaped | src/Service/CurrencyService.php:81-85 | When no field needs escaping, the message is the three texts between the fixed keys |
| CurrencyService.ExampleCodeUnescaped | src/Service/CurrencyService.php:83-84 | `USD` and `RUR` are written into the JSON unescaped |
| CurrencyService.ExampleDateUnescaped | src/Service/CurrencyService.php:82 | `01.01.2022` is written into the JSON unescaped |
| FetchCommand.MatchesCodePattern | src/Command/FetchExchangeRatesCommand.php:129 | `/^[A-Z]{3}$/`: three upper-case letters, optionally followed by one final newline (see `FetchCommand.TrailingNewlineAccepted`) |
| FetchCommand.DateAccepted | src/Command/FetchExchangeRatesCommand.php:128 | No violation of `DateTime(format: 'd.m.Y')`: as written, the empty text or a real `d.m.Y` date; intended, a real date only (see `FetchCommand.IntendedAcceptance` and `FetchCommand.EmptyArgumentsAccepted`) |
| FetchCommand.CodeAccepted | src/Command/FetchExchangeRatesCommand.php:129 | No violation of the code pattern: as written, the empty text or a pattern match; intended, exactly three upper-case letters (see `FetchCommand.IntendedIsStricter`) |
| FetchCommand.AfterToday | src/Command/FetchExchangeRatesCommand.php:151-153 | The date parses and falls on a later day than today; a `false` from `createFromFormat` is never after today (see `FetchCommand.EmptyArgumentsAccepted`) |
| FetchCommand.ValidateInput | src/Command/FetchExchangeRatesCommand.php:126-156 | The first failing check, in source order, is reported: date format, currency, base currency, then a date after today. Input passes exactly when all four checks pass |
| FetchCommand.Message | src/Command/FetchExchangeRatesCommand.php:135-155 | The message of each `InvalidArgumentException`; `FetchCommand.MessagesDistinct` shows each check has its own |
| FetchCommand.MessagesDistinct | src/Command/FetchExchangeRatesCommand.php:135-155 | The four validation messages are pairwise different, so the printed line tells which check failed |
| FetchCommand.IntendedAcceptance | src/Command/FetchExchangeRatesCommand.php:135-155 | The intended checks accept exactly a real `d.m.Y` date no later than today together with two codes of three upper-case letters |
| FetchCommand.IntendedIsStricter | src/Command/FetchExchangeRatesCommand.php:128-133 | The constraints as written accept everything the intended checks accept |
| FetchCommand.TrailingNewlineAccepted | src/Command/FetchExchangeRatesCommand.php:129 | As written, a currency code followed by a newline passes `/^[A-Z]{3}$/`; the intended check rejects it |
| FetchCommand.EmptyArgumentsAccepted | src/Command/FetchExchangeRatesCommand.php:128-155 | As written, an empty date and empty codes pass every constraint and the future check |
| FetchCommand.DateExampleParses | src/Command/FetchExchangeRatesCommand.php:88 | `01.01.2022` is read as 1 January 2022 |
| FetchCommand.RoundHalfAwayFromZero | src/Command/FetchExchangeRatesCommand.php:103 | `number_format` rounds to the nearest integer, with halves going away from zero |
| FetchCommand.NumberFormat4 | src/Command/FetchExchangeRatesCommand.php:103 | `number_format($x, 4)` shows `x` to within half a ten-thousandth |
| FetchCommand.SignPrefix | src/Command/FetchExchangeRatesCommand.php:105 | `$difference >= 0 ? '+' : ''` on the formatted text; its meaning in terms of the two rates is given by `FetchCommand.DifferenceLineMeaning` |
| FetchCommand.Callback | src/Command/FetchExchangeRatesCommand.php:90-107 | A result with an exception prints only the "Try later" error. Otherwise four lines are printed: the base currency, the rate on the `Y-m-d` date, the previous rate and the difference |
| FetchCommand.DifferenceLineMeaning | src/Command/FetchExchangeRatesCommand.php:103-106 | The difference line shows the difference to within half a ten-thousandth, and carries `+` exactly when the rate fell by less than half a ten-thousandth or did not fall |
| FetchCommand.RisingRateHasPlusSign | src/Command/FetchExchangeRatesCommand.php:103-106 | A rate that did not fall is reported with a `+` |
| FetchCommand.CallbackLines | src/Command/FetchExchangeRatesCommand.php:90-107 | Each callback invocation prints one line or four; a single invocation prints exactly what `FetchCommand.Callback` gives |
| FetchCommand.Execute | src/Command/FetchExchangeRatesCommand.php:80-118 | Invalid input prints its message and sends nothing. Whenever `execute` returns, it returns `SUCCESS`. Only non-exception errors escape. Accepted input publishes exactly the encoded job when its date parses, and nothing otherwise |
| FetchCommand.AcceptedInputRunsService | src/Command/FetchExchangeRatesCommand.php:86-109 | Accepted input with a parsable date runs the service on that date, in the selected argument order, and prints what the callback printed. The command returns `SUCCESS` exactly when nothing escaped |
| FetchCommand.AsWrittenAcceptedInputCrashes | src/Command/FetchExchangeRatesCommand.php:86-117 | As written, every input `validateInput` lets through ends in a `TypeError` that neither `catch` handles: nothing is printed, the provider's state is unchanged, and `SUCCESS` is never returned |
| FetchCommand.DefaultBaseIsRur | src/Command/FetchExchangeRatesCommand.php:67-72 | Omitting `base_currency` behaves exactly as passing `RUR` |
| FetchCommand.BaseCurrencyArgument | src/Command/FetchExchangeRatesCommand.php:67-72 | `base_currency` is the argument when given and `RUR` otherwise |
| FetchCommand.IntendedRunAnswersOnce | src/Command/FetchExchangeRatesCommand.php:80-118 | Under the intended checks, with an empty queue and a provider that throws only exceptions, the command returns `SUCCESS` after printing either one line or four |
| FetchCommand.EmptyDateCrashes | src/Command/FetchExchangeRatesCommand.php:86-109 | As written, an empty date passes validation, and the `false` from `createFromFormat` makes the service call raise a `TypeError` before anything is sent or printed. The intended checks report the invalid date format |
| FetchCommand.CommandExample | src/Command/FetchExchangeRatesCommand.php:80-118 | The test's rates run through the command give the base line, the rate on 2022-01-01, the previous rate and `+1.0000`, and the command returns `SUCCESS` |
| FetchCommand.CallbackExample | src/Command/FetchExchangeRatesCommand.php:97-106 | Rates 73.123 and 72.123 on 2022-01-01 print the four report lines with difference `+1.0000` |
| FetchCommand.IsoDateExample | src/Command/FetchExchangeRatesCommand.php:100 | 2022-01-01 is written `2022-01-01` |

## Left out

- HTTP and XML: the Guzzle request and the DOM/XPath parsing are the `Fetcher` parameter. It yields a request failure, an empty body or the parsed nodes. An empty body makes `loadXML` raise a `ValueError` (an `Error`, which `@` does not silence); the model carries it as `ValueError`. A non-empty body that is not well-formed XML loads nothing, so the XPath query finds no node, and the model treats it as an empty node list.
- RabbitMQ I/O: the connection, `queue_declare` flags and the 30-second `wait` loop are left out. `Deliver` requires a non-empty queue. In the model the queue always holds the message just sent, so the loop's waiting never matters.
- MessageBroker.Deliver: the model assumes every message ready when the consumer registers is pushed to it, which is what `no_ack` with no prefetch limit allows. It does not model the timing of deliveries, nor messages published later while the channel stays open.
- Exceptions raised by the broker or the cache adapter are left out. Because of this and the next line, the command's `catch (Exception $e)` at src/Command/FetchExchangeRatesCommand.php:112-114 is never reached in the model: the service's handler catches every modelled exception first.
- CurrencyService.HandleJob, CurrencyService.CallbackExactlyOnce: the callback is assumed never to throw. In the source it runs inside the handler's `try` (src/Service/CurrencyService.php:103), so an `Exception` from it, such as the `RuntimeException` Symfony's `writeln` raises when it cannot write, would make line 106 invoke the callback a second time; an exception thrown there would then reach the command's `catch (Exception $e)`.
- Logging (`logger->info` and `logger->error`) has no observable effect on the modelled outcome and is left out.
- Floating point: rates are exact reals. Binary rounding and PHP's float-to-string rendering inside the report lines are not modelled, and the report keeps rates as numbers.
- PhpNumbers.ReturnAsInt: the `int` range is tested on the exact value of the `Nominal` text, not on the double it rounds to. A text just below 2^63 that rounds up to 2^63 as a double raises a `TypeError` in PHP but converts in the model. The `TypeError` for `NAN` is not modelled, because the `(float)` cast never produces it here.
- The `(float)` cast reads sign, digits and a decimal fraction; exponents (`1e3`) and `INF`/`NAN` are not modelled.
- `number_format`'s thousands separator and the text it produces are not modelled; the model keeps the count of ten-thousandths. The separator cannot change the sign test, because a negative text starts with `-`.
- `DateFormat.ParseDmy`: only dates in `d.m.Y` with a year of at most four digits are accepted. `createFromFormat`'s rollover of impossible dates such as 31.02.2022 is not modelled. On the command's path this changes nothing, because the date constraint rejects such dates before lines 88 and 152 parse them.
- CurrencyService.HandleMessage: on the consumer's path no constraint runs. A consumed body whose date is an impossible one such as 31.02.2022 is rolled over by `createFromFormat` at src/Service/CurrencyService.php:95 (to 03.03.2022), and the provider is queried for that day; the model raises a `TypeError` instead. The caller's own job never has such a date (`CurrencyService.HandleOwnMessage`), only a message left in the queue by another producer can.
- The future-date check compares calendar days. The time of day and microseconds that `new DateTime()` and `createFromFormat` carry are left out.
- DateFormat.ParseFormatDmy: stated for years 0 to 9999 only; outside those years the program's own `format('d.m.Y')` and `createFromFormat('d.m.Y')` round trip fails, because `Y` then writes more than four digits or a sign, which the parse does not read back.
- CbrProvider.CreateUrlCarriesDate: stated for years 0 to 9999 only; outside those years the program's own `format('d.m.Y')` and `createFromFormat('d.m.Y')` round trip fails, because `Y` then writes more than four digits or a sign, which the parse does not read back.
- CurrencyService.HandleOwnMessage: stated for years 0 to 9999 only; outside those years the program's own `format('d.m.Y')` and `createFromFormat('d.m.Y')` round trip fails, because `Y` then writes more than four digits or a sign, which the parse does not read back.
- CurrencyService.OwnJobRoundTrip: stated for years 0 to 9999 only; outside those years the program's own `format('d.m.Y')` and `createFromFormat('d.m.Y')` round trip fails, because `Y` then writes more than four digits or a sign, which the parse does not read back.
- CurrencyService.CallbackExactlyOnce: stated for years 0 to 9999 only; outside those years the program's own `format('d.m.Y')` and `createFromFormat('d.m.Y')` round trip fails, because `Y` then writes more than four digits or a sign, which the parse does not read back.
- CbrProvider.GetRate: the provider's own default `$baseCurrencyCode = self::BASE_CURRENCY_CODE` (src/Provider/CbrCurrencyRateProvider.php:61 and :124) is not modelled; the base is always passed. Every caller passes it: the service at lines 53 and 101, and `getRate` to `findRateInXml` at line 70. The service's own default is modelled (`CurrencyService.FetchExchangeRate`).
- `JobMessage.DecodeJob` accepts only the canonical layout `json_encode` produces. Other JSON texts with the same fields (whitespace, reordered members) are treated as not a job.
- Cache adapter internals are left out: `saveDeferred`/`commit`, pools shared between processes, and concurrency.
- The `$rate === null` branch of `getRate` (lines 72-74) cannot be taken. `findRateInXml` always returns a float or throws, so `CurrencyCodeNotFound` is declared but never produced.
- What Symfony prints for an uncaught `Error`, and its exit status, is left out; the model ends in `Crashed`.
- The unit test's mocked provider is expressed as preconditions on the provider parameter, not as PHPUnit's `with` matching. The mock answers only for 2022-01-01 (73.123); the answer of 72.123 for the previous trading day is an extra precondition. In the test the broker is a mock whose `receive` never runs the handler, so its callback assertion is never reached; the model runs the queue and shows the expected callback value would be met.
- `ExchangeRateResult`: the class can hold any combination of nullable fields. The model keeps only the two shapes the service builds: two rates, or an exception.

## Findings

| source | as written | input that shows it | evidently intended | confidence | as-written member | corrected member |
|---|---|---|---|---|---|---|
| src/Service/CurrencyService.php:53 | `getRate($currencyCode, $baseCurrencyCode, $date)`, also at line 101, against `getRate(DateTime $date, string $currencyCode, string $baseCurrencyCode)`. The first argument fails the `DateTime` type check, so a `TypeError` escapes the handler's `catch (Exception $e)` and the callback is never called | any job, e.g. 01.01.2022, USD, RUR | `getRate($date, $currencyCode, $baseCurrencyCode)` | high, not executed | CurrencyService.SourceOrderNeverCallsBack | CurrencyService.CallbackExactlyOnce |
| src/Command/FetchExchangeRatesCommand.php:129 | `/^[A-Z]{3}$/` without the `D` modifier: `$` also matches before a final newline | currency `"USD\n"` passes validation | exactly three upper-case letters, as the error message says | high, not executed | FetchCommand.TrailingNewlineAccepted | FetchCommand.IntendedAcceptance |
| src/Command/FetchExchangeRatesCommand.php:128 | The `DateTime` and `Regex` constraints accept the empty string. `createFromFormat` then returns `false` at line 88, which line 109 passes where `DateTime` is declared: a `TypeError` that neither `catch` handles | `app:fetch-exchange-rates "" USD` | "Invalid date format. Please use 'd.m.Y' format." | medium, not executed | FetchCommand.EmptyDateCrashes | FetchCommand.IntendedRunAnswersOnce |

=== FILE: calendar.dfy ===
/**
 * Proleptic Gregorian calendar dates, standing in for the PHP `DateTime`
 * values the service passes around. Only the calendar day matters to the
 * rate pipeline (the feed is daily), so a date is a (year, month, day) triple.
 * A day count from 0001-01-01 makes "one day earlier" and the ISO weekday
 * definable across month, year and leap-year boundaries.
 */
module Calendar {

  datatype Date = Date(year: int, month: int, day: int) {

    /** A real calendar day: the month exists and the day lies in it. */
    predicate Valid() {
      1 <= month <= 12 && 1 <= day <= DaysInMonth(year, month)
    }
  }

  /** The dates a PHP `DateTime` can hold. */
  type ValidDate = d: Date | d.Valid() witness Date(2000, 1, 1)

  predicate IsLeapYear(y: int) {
    y % 4 == 0 && (y % 100 != 0 || y % 400 == 0)
  }

  function DaysInMonth(y: int, m: int): (n: int)
    requires 1 <= m <= 12
    ensures 28 <= n <= 31
    ensures m == 2 ==> (n == 29 <==> IsLeapYear(y))
  {
    if m == 2 then (if IsLeapYear(y) then 29 else 28)
    else if m == 4 || m == 6 || m == 9 || m == 11 then 30
    else 31
  }

  /** Days in the years before `y`, counted from year 1 (negative before it). */
  function DaysBeforeYear(y: int): int {
    365 * (y - 1) + (y - 1) / 4 - (y - 1) / 100 + (y - 1) / 400
  }

  /** Days in the months of year `y` before month `m`. */
  function DaysBeforeMonth(y: int, m: int): int
    requires 1 <= m <= 12
  {
    var common :=
      if m == 1 then 0 else if m == 2 then 31 else if m == 3 then 59
      else if m == 4 then 90 else if m == 5 then 120 else if m == 6 then 151
      else if m == 7 then 181 else if m == 8 then 212 else if m == 9 then 243
      else if m == 10 then 273 else if m == 11 then 304 else 334;
    common + (if m > 2 && IsLeapYear(y) then 1 else 0)
  }

  /** The number of days between 0001-01-01 and `d` (0 for that day itself). */
  function DayNumber(d: Date): int
    requires d.Valid()
  {
    DaysBeforeYear(d.year) + DaysBeforeMonth(d.year, d.month) + d.day - 1
  }

  /** ISO-8601 weekday of a day number: 1 = Monday ... 7 = Sunday. */
  function WeekdayOfDayNumber(n: int): (w: int)
    ensures 1 <= w <= 7
  {
    n % 7 + 1
  }

  /** ISO-8601 weekday, PHP's `format('N')`. 0001-01-01 was a Monday. */
  function IsoWeekday(d: Date): (w: int)
    requires d.Valid()
    ensures 1 <= w <= 7
  {
    WeekdayOfDayNumber(DayNumber(d))
  }

  predicate IsWeekend(d: Date)
    requires d.Valid()
  {
    IsoWeekday(d) >= 6
  }

  /** One year has 365 days plus the leap day when that year is a leap year. */
  lemma YearLength(y: int)
    ensures DaysBeforeYear(y + 1) - DaysBeforeYear(y) == 365 + (if IsLeapYear(y) then 1 else 0)
  {
    var n := y - 1;
    assert (n + 1) / 4 - n / 4 == (if y % 4 == 0 then 1 else 0);
    assert (n + 1) / 100 - n / 100 == (if y % 100 == 0 then 1 else 0);
    assert (n + 1) / 400 - n / 400 == (if y % 400 == 0 then 1 else 0);
    if y % 400 == 0 {
      assert y % 100 == 0 && y % 4 == 0;
    } else if y % 100 == 0 {
      assert y % 4 == 0;
    }
  }

  /**
   * PHP's `modify('-1 day')`: the calendar day before `d`, which may lie in
   * the previous month or year.
   */
  function PrevDay(d: Date): (r: Date)
    requires d.Valid()
    ensures r.Valid()
    ensures DayNumber(r) == DayNumber(d) - 1
  {
    if d.day > 1 then
      Date(d.year, d.month, d.day - 1)
    else if d.month > 1 then
      Date(d.year, d.month - 1, DaysInMonth(d.year, d.month - 1))
    else
      YearLength(d.year - 1);
      Date(d.year - 1, 12, 31)
  }

  /** Stepping back one day steps the weekday back by one, cyclically. */
  lemma PrevDayWeekday(d: Date)
    requires d.Valid()
    ensures IsoWeekday(d) > 1 ==> IsoWeekday(PrevDay(d)) == IsoWeekday(d) - 1
    ensures IsoWeekday(d) == 1 ==> IsoWeekday(PrevDay(d)) == 7
  {
    WeekdayStep(DayNumber(d));
  }

  lemma WeekdayStep(n: int)
    ensures WeekdayOfDayNumber(n) > 1 ==> WeekdayOfDayNumber(n - 1) == WeekdayOfDayNumber(n) - 1
    ensures WeekdayOfDayNumber(n) == 1 ==> WeekdayOfDayNumber(n - 1) == 7
  {
  }
}

=== FILE: cbr_provider.dfy ===
/**
 * `CbrCurrencyRateProvider`: resolves the rate of a currency against a base
 * currency on a date from the central bank's daily feed, through the cache.
 *
 * The HTTP request and the XML parsing are not modelled: a `Fetcher` maps the
 * request URL to what the request yielded — a failure of the HTTP client, an
 * empty body, or the parsed document (its `Valute` nodes in document order;
 * a body that is not well-formed XML parses to no nodes).
 */
module CbrProvider {
  import opened Wrappers
  import opened Failures
  import opened Calendar
  import opened DateFormat
  import opened PhpNumbers
  import opened RateCache

  /** `BASE_CURRENCY_CODE`: the currency the feed quotes every rate in. */
  const BaseCurrencyCode: string := "RUR"

  /** `CBR_DAILY_URL` up to its `%s` placeholder, which ends the template. */
  const CbrDailyUrlPrefix: string := "https://www.cbr.ru/scripts/XML_daily.asp?date_req="

  /** One `<Valute>` element: its `CharCode`, `Value` and `Nominal` texts, when present. */
  datatype Valute = Valute(charCode: Option<string>, value: Option<string>, nominal: Option<string>)

  type Document = seq<Valute>

  /** What the HTTP GET of a feed URL yielded, after `loadXML`. */
  datatype Fetched =
    | RequestFailed    // the client threw a `GuzzleException`
    | EmptyBody        // `loadXML('')` raises `ValueError`, which `@` does not silence
    | Parsed(doc: Document)

  type Fetcher = string -> Fetched

  /** `createCacheKey`: `rate_<currency>_<base>_<Ymd>`. */
  function CreateCacheKey(currency: string, base: string, date: Date): (key: string)
    requires date.Valid()
    ensures |key| == 7 + |currency| + |base| + |FormatYmd(date)| && key[..5] == "rate_"
    ensures |currency| == 3 && |base| == 3 ==>
      key[5..8] == currency && key[9..12] == base && key[13..] == FormatYmd(date)
  {
    "rate_" + currency + "_" + base + "_" + FormatYmd(date)
  }

  /**
   * Distinct queries get distinct cache keys, as long as the currency codes
   * are three characters long (what the command's validation ensures).
   */
  lemma CacheKeyInjective(c1: string, b1: string, d1: Date, c2: string, b2: string, d2: Date)
    requires |c1| == 3 && |b1| == 3 && d1.Valid()
    requires |c2| == 3 && |b2| == 3 && d2.Valid()
    requires CreateCacheKey(c1, b1, d1) == CreateCacheKey(c2, b2, d2)
    ensures c1 == c2 && b1 == b2 && d1 == d2
  {
    FormatYmdInjective(d1, d2);
  }

  /** `createUrl`: the feed URL with the date filled in as `d.m.Y`. */
  function CreateUrl(date: Date): (url: string)
    requires date.Valid()
    ensures |url| == |CbrDailyUrlPrefix| + |FormatDmy(date)|
    ensures url[..|CbrDailyUrlPrefix|] == CbrDailyUrlPrefix && url[|CbrDailyUrlPrefix|..] == FormatDmy(date)
  {
    CbrDailyUrlPrefix + FormatDmy(date)
  }

  /** The date can be read back from the URL, so each day has its own request. */
  lemma CreateUrlCarriesDate(date: Date)
    requires date.Valid() && 0 <= date.year <= 9999
    ensures ParseDmy(CreateUrl(date)[|CbrDailyUrlPrefix|..]) == Some(date)
  {
    ParseFormatDmy(date);
  }

  /**
   * Position of the first `Valute` whose `CharCode` is `code`: the first
   * node of the XPath query `//Valute[CharCode='<code>']`.
   */
  function FirstMatch(doc: Document, code: string): (r: Option<nat>)
    ensures r.Some? ==> r.value < |doc| && doc[r.value].charCode == Some(code)
    ensures r.Some? ==> forall j :: 0 <= j < r.value ==> doc[j].charCode != Some(code)
    ensures r.None? <==> forall j :: 0 <= j < |doc| ==> doc[j].charCode != Some(code)
  {
    if |doc| == 0 then None
    else if doc[0].charCode == Some(code) then Some(0)
    else
      match FirstMatch(doc[1..], code)
      case None => None
      case Some(i) => Some(i + 1)
  }

  /** `findCurrencyCodeNode`: the matching node, or "Currency node not found". */
  function FindCurrencyCodeNode(doc: Document, code: string): (r: Result<Valute, Error>)
    ensures r.Success? <==> FirstMatch(doc, code).Some?
    ensures r.Success? ==> r.value == doc[FirstMatch(doc, code).value]
    ensures r.Failure? ==> r.error == Thrown(CurrencyNodeNotFound(code))
  {
    match FirstMatch(doc, code)
    case Some(i) => Success(doc[i])
    case None => Failure(Thrown(CurrencyNodeNotFound(code)))
  }

  /** `parseExchangeRate`: the `Value` text as a number, decimal comma allowed. */
  function ParseExchangeRate(node: Valute): (r: Result<real, Error>)
    ensures r.Failure? <==> node.value.None?
    ensures r.Failure? ==> r.error == Thrown(RateValueNotFound)
  {
    match node.value
    case None => Failure(Thrown(RateValueNotFound))
    case Some(text) => Success(FloatCast(CommaToDot(text)))
  }

  /**
   * `parseNominal`: the `Nominal` text as a number, converted to `int` by
   * the function's declared return type; a number outside the `int` range
   * raises a `TypeError`.
   */
  function ParseNominal(node: Valute): (r: Result<int, Error>)
    ensures node.nominal.None? ==> r == Failure(Thrown(NominalValueNotFound))
    ensures node.nominal.Some? ==> (r.Success? <==> FitsInt(FloatCast(CommaToDot(node.nominal.value))))
    ensures node.nominal.Some? && r.Failure? ==> r.error == TypeError
    ensures r.Success? ==> PhpIntMin <= r.value <= PhpIntMax
  {
    match node.nominal
    case None => Failure(Thrown(NominalValueNotFound))
    case Some(text) => ReturnAsInt(FloatCast(CommaToDot(text)))
  }

  /**
   * A `Nominal` of 2^63 or more cannot be returned as `int`: the node fails
   * with a `TypeError`, and so does a cross rate that reads it, past every
   * `catch (Exception $e)`.
   */
  lemma HugeNominalIsTypeError(doc: Document, currency: string, base: string, text: string)
    requires AllDigits(text) && DigitsValue(text) > PhpIntMax
    requires base != BaseCurrencyCode
    requires FirstMatch(doc, currency).Some? && FirstMatch(doc, base).Some?
    requires doc[FirstMatch(doc, currency).value].value.Some?
    requires doc[FirstMatch(doc, base).value].value.Some?
    requires doc[FirstMatch(doc, base).value].nominal == Some(text)
    ensures RateFromDocument(doc, currency, base) == Failure(TypeError)
    ensures !RateFromDocument(doc, currency, base).error.IsException()
  {
    IntegerTextValue(text);
  }

  /** PHP's `/`: a zero divisor raises `DivisionByZeroError`, which is not an exception. */
  function Divide(x: real, y: real): (r: Result<real, Error>)
    ensures r.Success? <==> y != 0.0
    ensures r.Success? ==> r.value * y == x
    ensures r.Failure? ==> r.error == DivisionByZero
  {
    if y == 0.0 then Failure(DivisionByZero) else Success(x / y)
  }

  /**
   * The document part of `findRateInXml`. Against the feed's own base the
   * rate is the target's `Value` as quoted; against any other base it is the
   * cross rate `(value / baseValue) * (baseNominal / nominal)`. The checks run
   * in the source's order: target node, target value, base node, base value,
   * base nominal, target nominal, then the two divisions.
   */
  function RateFromDocument(doc: Document, currency: string, base: string): (r: Result<real, Error>)
    ensures base == BaseCurrencyCode ==>
      (r.Success? <==> FirstMatch(doc, currency).Some? && doc[FirstMatch(doc, currency).value].value.Some?)
    ensures base != BaseCurrencyCode && r.Success? ==>
      FirstMatch(doc, currency).Some? && FirstMatch(doc, base).Some?
  {
    var node :- FindCurrencyCodeNode(doc, currency);
    var value :- ParseExchangeRate(node);
    if base != BaseCurrencyCode then
      var baseNode :- FindCurrencyCodeNode(doc, base);
      var baseValue :- ParseExchangeRate(baseNode);
      var baseNominal :- ParseNominal(baseNode);
      var nominal :- ParseNominal(node);
      CrossQuotient(value, baseValue, baseNominal, nominal)
    else
      Success(value)
  }

  /** `($value / $baseValue) * ($baseNominal / $nominal)`, each division checked for a zero divisor. */
  function CrossQuotient(value: real, baseValue: real, baseNominal: int, nominal: int): (r: Result<real, Error>)
    ensures r.Success? <==> baseValue != 0.0 && nominal != 0
    ensures r.Failure? ==> r.error == DivisionByZero
  {
    var left :- Divide(value, baseValue);
    var right :- Divide(baseNominal as real, nominal as real);
    Success(left * right)
  }

  /** `findRateInXml`: fetch the feed for the date, then read the rate from it. */
  function FindRateInXml(fetch: Fetcher, date: Date, currency: string, base: string): (r: Result<real, Error>)
    requires date.Valid()
    ensures fetch(CreateUrl(date)).RequestFailed? ==> r == Failure(Thrown(FetchFailed(CreateUrl(date))))
    ensures fetch(CreateUrl(date)).EmptyBody? ==> r == Failure(ValueError) && !r.error.IsException()
    ensures fetch(CreateUrl(date)).Parsed? ==> r == RateFromDocument(fetch(CreateUrl(date)).doc, currency, base)
  {
    var url := CreateUrl(date);
    match fetch(url)
    case RequestFailed => Failure(Thrown(FetchFailed(url)))
    case EmptyBody => Failure(ValueError)
    case Parsed(doc) => RateFromDocument(doc, currency, base)
  }

  /** The outcome of `getRate` plus the feed URLs it requested (none on a hit). */
  datatype RateLookup = RateLookup(result: Result<real, Error>, cache: Cache, requested: seq<string>)

  /**
   * `getRate(date, currency, base)`: a live cache entry is returned as is;
   * otherwise the feed is queried and a successful rate is cached for an
   * hour. Failures are rethrown unchanged and never cached.
   */
  function GetRate(c: Cache, now: int, fetch: Fetcher, date: Date, currency: string, base: string): (r: RateLookup)
    requires date.Valid()
    ensures var key := CreateCacheKey(currency, base, date);
      && (IsHit(c, key, now) ==> r == RateLookup(Success(c[key].value), c, []))
      && (!IsHit(c, key, now) ==>
            && r.requested == [CreateUrl(date)]
            && r.result == FindRateInXml(fetch, date, currency, base)
            && (r.result.Success? ==> r.cache == c[key := Entry(r.result.value, now + RateCacheTtl)])
            && (r.result.Failure? ==> r.cache == c))
  {
    var key := CreateCacheKey(currency, base, date);
    var lookup := GetOrCompute(c, now, key, () => FindRateInXml(fetch, date, currency, base));
    RateLookup(lookup.result, lookup.cache, if lookup.computed then [CreateUrl(date)] else [])
  }

  /** A currency missing from the document is reported, never given a rate. */
  lemma AbsentCurrencyNotFound(doc: Document, currency: string, base: string)
    requires forall j :: 0 <= j < |doc| ==> doc[j].charCode != Some(currency)
    ensures RateFromDocument(doc, currency, base) == Failure(Thrown(CurrencyNodeNotFound(currency)))
  {
  }

  /**
   * Against the feed's own base the rate is the first matching node's
   * `Value`, whatever its nominal is (or whether it has one).
   */
  lemma NativeBaseIsQuotedValue(doc: Document, currency: string, i: nat, text: string)
    requires FirstMatch(doc, currency) == Some(i)
    requires doc[i].value == Some(text)
    ensures RateFromDocument(doc, currency, BaseCurrencyCode) == Success(FloatCast(CommaToDot(text)))
  {
  }

  /** The numbers a successful cross-rate computation starts from. */
  predicate CrossRateInputs(doc: Document, currency: string, base: string,
                            value: real, nominal: int, baseValue: real, baseNominal: int)
  {
    && FindCurrencyCodeNode(doc, currency).Success?
    && ParseExchangeRate(FindCurrencyCodeNode(doc, currency).value) == Success(value)
    && ParseNominal(FindCurrencyCodeNode(doc, currency).value) == Success(nominal)
    && FindCurrencyCodeNode(doc, base).Success?
    && ParseExchangeRate(FindCurrencyCodeNode(doc, base).value) == Success(baseValue)
    && ParseNominal(FindCurrencyCodeNode(doc, base).value) == Success(baseNominal)
  }

  /**
   * Against another base the rate is `(value / baseValue) * (baseNominal / nominal)`
   * (by `PerUnitQuotient`, the target's per-unit rate over the base's).
   */
  lemma CrossRate(doc: Document, currency: string, base: string,
                  value: real, nominal: int, baseValue: real, baseNominal: int)
    requires base != BaseCurrencyCode
    requires CrossRateInputs(doc, currency, base, value, nominal, baseValue, baseNominal)
    requires baseValue != 0.0 && nominal != 0
    ensures RateFromDocument(doc, currency, base).Success?
    ensures RateFromDocument(doc, currency, base).value
         == (value / baseValue) * (baseNominal as real / nominal as real)
  {
    var node := FindCurrencyCodeNode(doc, currency).value;
    var baseNode := FindCurrencyCodeNode(doc, base).value;
    assert ParseExchangeRate(node) == Success(value);
    assert ParseExchangeRate(baseNode) == Success(baseValue);
    assert ParseNominal(baseNode) == Success(baseNominal);
    assert ParseNominal(node) == Success(nominal);
    assert RateFromDocument(doc, currency, base) == CrossQuotient(value, baseValue, baseNominal, nominal);
    CrossQuotientValue(value, baseValue, baseNominal, nominal);
  }

  lemma CrossQuotientValue(value: real, baseValue: real, baseNominal: int, nominal: int)
    requires baseValue != 0.0 && nominal != 0
    ensures CrossQuotient(value, baseValue, baseNominal, nominal).Success?
    ensures CrossQuotient(value, baseValue, baseNominal, nominal).value
         == (value / baseValue) * (baseNominal as real / nominal as real)
  {
  }

  /**
   * The source's cross-rate formula is the target's per-unit rate divided by
   * the base's per-unit rate.
   */
  lemma PerUnitQuotient(v: real, n: real, bv: real, bn: real)
    requires n != 0.0 && bv != 0.0 && bn != 0.0
    ensures bv / bn != 0.0
    ensures (v / bv) * (bn / n) == (v / n) / (bv / bn)
  {
    var q := (v / bv) * (bn / n);
    assert q * bv * n == v * bn;
    var p := (v / n) / (bv / bn);
    assert p * (bv / bn) == v / n;
    assert p * bv * n == v * bn;
  }

  /** A currency quoted against itself (other than the feed's base) has rate 1. */
  lemma SameCurrencyRateIsOne(doc: Document, currency: string, value: real, nominal: int)
    requires currency != BaseCurrencyCode
    requires CrossRateInputs(doc, currency, currency, value, nominal, value, nominal)
    requires value != 0.0 && nominal != 0
    ensures RateFromDocument(doc, currency, currency) == Success(1.0)
  {
    CrossRate(doc, currency, currency, value, nominal, value, nominal);
  }

  /**
   * A zero base value or zero nominal raises `DivisionByZeroError`, an error
   * no `catch (Exception $e)` intercepts.
   */
  lemma ZeroDivisorIsNotAnException(doc: Document, currency: string, base: string,
                                    value: real, nominal: int, baseValue: real, baseNominal: int)
    requires base != BaseCurrencyCode
    requires CrossRateInputs(doc, currency, base, value, nominal, baseValue, baseNominal)
    requires baseValue == 0.0 || nominal == 0
    ensures RateFromDocument(doc, currency, base) == Failure(DivisionByZero)
    ensures !RateFromDocument(doc, currency, base).error.IsException()
  {
  }

  /**
   * Every failure of the document lookup is one of the source's exceptions,
   * a `Nominal` out of the `int` range, or a division by zero.
   */
  lemma DocumentFailures(doc: Document, currency: string, base: string)
    requires RateFromDocument(doc, currency, base).Failure?
    ensures RateFromDocument(doc, currency, base).error in
      {Thrown(CurrencyNodeNotFound(currency)), Thrown(CurrencyNodeNotFound(base)),
       Thrown(RateValueNotFound), Thrown(NominalValueNotFound), TypeError, DivisionByZero}
  {
  }

  /**
   * The cross-rate example of the feed: USD at 75,00 and EUR at 85,00 (both
   * per one unit) give EUR against USD as 85 / 75.
   */
  lemma EuroAgainstDollarExample()
    ensures RateFromDocument(
              [Valute(Some("USD"), Some("75,00"), Some("1")), Valute(Some("EUR"), Some("85,00"), Some("1"))],
              "EUR", "USD")
         == Success(85.0 / 75.0)
  {
    var usd := Valute(Some("USD"), Some("75,00"), Some("1"));
    var eur := Valute(Some("EUR"), Some("85,00"), Some("1"));
    var doc := [usd, eur];
    QuotedPerUnit(usd, '7', '5', 75);
    QuotedPerUnit(eur, '8', '5', 85);
    assert FirstMatch(doc, "USD") == Some(0);
    assert FirstMatch(doc[1..], "EUR") == Some(0);
    assert FirstMatch(doc, "EUR") == Some(1);
    CrossRate(doc, "EUR", "USD", 85.0, 1, 75.0, 1);
  }

  /** A node quoting a two-digit whole number with zero kopecks, per one unit. */
  lemma QuotedPerUnit(node: Valute, tens: char, units: char, n: nat)
    requires IsDigit(tens) && IsDigit(units) && n == 10 * DigitValue(tens) + DigitValue(units)
    requires node.value == Some([tens, units, ',', '0', '0']) && node.nominal == Some("1")
    ensures ParseExchangeRate(node) == Success(n as real)
    ensures ParseNominal(node) == Success(1)
  {
    TwoDigitQuote(tens, units, n);
    assert FloatCast(CommaToDot("1")) == 1.0 by {
      IntegerTextValue("1");
      assert DigitsValue("1") == 1 by { assert "1"[..0] == ""; }
    }
  }

  lemma TwoDigitQuote(tens: char, units: char, n: nat)
    requires IsDigit(tens) && IsDigit(units) && n == 10 * DigitValue(tens) + DigitValue(units)
    ensures FloatCast(CommaToDot([tens, units, ',', '0', '0'])) == n as real
  {
    var whole := [tens, units];
    assert DigitsValue(whole) == n by {
      assert whole[..1] == [tens];
      assert DigitsValue([tens]) == DigitValue(tens) by { assert [tens][..0] == []; }
    }
    assert FractionValue("00") == 0.0 by {
      assert DigitsValue("00") == 0 by { assert "00"[..1] == "0"; }
    }
    assert [tens, units, ',', '0', '0'] == whole + "," + "00";
    DecimalCommaValue(whole, "00");
  }

  /** A cache hit returns the stored rate without requesting the feed or changing the cache. */
  lemma CacheHitSkipsFetch(c: Cache, now: int, fetch: Fetcher, date: Date, currency: string, base: string)
    requires date.Valid()
    requires IsHit(c, CreateCacheKey(currency, base, date), now)
    ensures GetRate(c, now, fetch, date, currency, base).requested == []
    ensures GetRate(c, now, fetch, date, currency, base).cache == c
    ensures GetRate(c, now, fetch, date, currency, base).result
         == Success(c[CreateCacheKey(currency, base, date)].value)
  {
  }

  /**
   * A failed lookup (fetch error, missing node or field, division by zero)
   * propagates its error and leaves the cache exactly as it was.
   */
  lemma FailureNotCached(c: Cache, now: int, fetch: Fetcher, date: Date, currency: string, base: string)
    requires date.Valid()
    requires GetRate(c, now, fetch, date, currency, base).result.Failure?
    ensures GetRate(c, now, fetch, date, currency, base).cache == c
    ensures !IsHit(c, CreateCacheKey(currency, base, date), now)
    ensures GetRate(c, now, fetch, date, currency, base).result == FindRateInXml(fetch, date, currency, base)
  {
  }

  /**
   * Asking again within the hour after a successful lookup is served from
   * the cache: the same rate, no second request.
   */
  lemma RepeatWithinTtlServedFromCache(c: Cache, now: int, later: int, fetch: Fetcher, fetch2: Fetcher,
                                       date: Date, currency: string, base: string)
    requires date.Valid()
    requires !IsHit(c, CreateCacheKey(currency, base, date), now)
    requires GetRate(c, now, fetch, date, currency, base).result.Success?
    requires now <= later < now + RateCacheTtl
    ensures GetRate(GetRate(c, now, fetch, date, currency, base).cache, later, fetch2, date, currency, base).requested == []
    ensures GetRate(GetRate(c, now, fetch, date, currency, base).cache, later, fetch2, date, currency, base).result
         == GetRate(c, now, fetch, date, currency, base).result
  {
  }
}

=== FILE: currency_service.dfy ===
/**
 * `CurrencyService`: the direct rate lookup and the queue round trip
 * `fetchRatesWithQueue` — encode the job, send it to `exchange_rates_queue`,
 * consume one message, resolve the rate on its date and on the previous
 * trading day, and hand the outcome to the callback.
 *
 * The rate provider is a parameter with its own state `S` (for the CBR
 * provider, its cache). The callback is represented by the list of results
 * it was invoked with, so "called exactly once" is a statement about a length.
 */
module CurrencyService {
  import opened Wrappers
  import opened Failures
  import opened Calendar
  import opened DateFormat
  import opened JobMessage
  import opened MessageBroker
  import opened RateResult
  import opened TradingDays

  /** `RATES_QUEUE_NAME`. */
  const RatesQueueName: string := "exchange_rates_queue"

  /** The base currency a caller gets when it leaves the argument out. */
  const DefaultBaseCurrency: string := "RUR"

  /** The arguments a provider's `getRate` runs with. */
  datatype Call = Call(date: ValidDate, currency: string, base: string)

  /** `RatesProviderInterface::getRate(DateTime $date, string $currencyCode, string $baseCurrencyCode)`. */
  type Provider<!S> = (S, Call) -> (Result<real, Error>, S)

  /** A PHP value passed as an argument: a `DateTime` or a string. */
  datatype PhpArg = DateArg(date: ValidDate) | StringArg(text: string)

  /**
   * How a call site lines the arguments of `getRate` up: in the interface's
   * order (date, currency, base), or in the order lines 53 and 101 of the
   * service write them (currency, base, date).
   */
  datatype ArgumentOrder = InterfaceOrder | SourceOrder

  function GetRateArguments(order: ArgumentOrder, date: ValidDate, currency: string, base: string): seq<PhpArg> {
    match order
    case InterfaceOrder => [DateArg(date), StringArg(currency), StringArg(base)]
    case SourceOrder => [StringArg(currency), StringArg(base), DateArg(date)]
  }

  /** The outcome of one provider invocation, with the calls that reached its body. */
  datatype Step<S> = Step(result: Result<real, Error>, state: S, calls: seq<Call>)

  /**
   * Invoking `getRate`: PHP first checks each argument against the declared
   * parameter type (`DateTime`, `string`, `string`); a mismatch raises a
   * `TypeError` before the provider runs.
   */
  function InvokeGetRate<S>(provider: Provider<S>, s: S, args: seq<PhpArg>): (r: Step<S>)
    requires |args| == 3
    ensures r.calls == [] <==> !(args[0].DateArg? && args[1].StringArg? && args[2].StringArg?)
    ensures r.calls == [] ==> r == Step(Failure(TypeError), s, [])
    ensures r.calls != [] ==> |r.calls| == 1 && (r.result, r.state) == provider(s, r.calls[0])
  {
    if args[0].DateArg? && args[1].StringArg? && args[2].StringArg? then
      var call := Call(args[0].date, args[1].text, args[2].text);
      var (result, s') := provider(s, call);
      Step(result, s', [call])
    else
      Step(Failure(TypeError), s, [])
  }

  /**
   * `fetchExchangeRate`: the direct, synchronous lookup, whose base currency
   * defaults to `RUR` when the caller leaves it out (`None`). In the
   * interface's order it is exactly the provider's answer; in the source's
   * order the provider never runs and the caller gets a `TypeError`.
   */
  function FetchExchangeRate<S>(order: ArgumentOrder, provider: Provider<S>, s: S,
                                date: ValidDate, currency: string, base: Option<string>): (r: Step<S>)
    ensures base.None? && order == InterfaceOrder ==>
      r.calls == [Call(date, currency, DefaultBaseCurrency)]
      && (r.result, r.state) == provider(s, Call(date, currency, DefaultBaseCurrency))
    ensures base.Some? && order == InterfaceOrder ==>
      r.calls == [Call(date, currency, base.value)] && (r.result, r.state) == provider(s, Call(date, currency, base.value))
    ensures order == SourceOrder ==> r == Step(Failure(TypeError), s, [])
  {
    InvokeGetRate(provider, s, GetRateArguments(order, date, currency, base.GetOr(DefaultBaseCurrency)))
  }

  /**
   * The unit test of `fetchExchangeRate`: called without a base currency on
   * 2022-01-01 for USD, the provider is asked once for USD against `RUR`,
   * and its 73.123 is the answer.
   */
  lemma FetchExchangeRateExample<S>(provider: Provider<S>, s: S, s': S)
    requires provider(s, Call(Date(2022, 1, 1), "USD", "RUR")) == (Success(73.123), s')
    ensures var r := FetchExchangeRate(InterfaceOrder, provider, s, Date(2022, 1, 1), "USD", None);
      r.calls == [Call(Date(2022, 1, 1), "USD", "RUR")] && r.result == Success(73.123)
  {
  }

  /** What handling one consumed message did: the callback's invocations and any error that escaped. */
  datatype Handled<S> = Handled(state: S, calls: seq<Call>, callbacks: seq<ExchangeRateResult>, escaped: Option<Error>)

  /** `catch (Exception $e)`: an exception becomes a failed result; any other error passes through. */
  function Catch<S>(s: S, calls: seq<Call>, e: Error): (h: Handled<S>)
    ensures e.IsException() ==> h == Handled(s, calls, [Failed(e.exception)], None)
    ensures !e.IsException() ==> h == Handled(s, calls, [], Some(e))
  {
    if e.IsException() then Handled(s, calls, [Failed(e.exception)], None)
    else Handled(s, calls, [], Some(e))
  }

  /** The callback is invoked exactly when nothing escapes, and only errors that are not exceptions escape. */
  predicate ContainsFailures<S>(h: Handled<S>) {
    && |h.callbacks| <= 1
    && (|h.callbacks| == 1 <==> h.escaped.None?)
    && (h.escaped.Some? ==> !h.escaped.value.IsException())
  }

  /**
   * The body of the consumer's closure once the job is decoded: the rate on
   * the date, then the rate on the previous trading day with the same
   * currencies, then the callback with both rates or with the exception.
   */
  function HandleJob<S>(order: ArgumentOrder, provider: Provider<S>, s: S,
                        date: ValidDate, currency: string, base: string): (h: Handled<S>)
    ensures ContainsFailures(h)
  {
    var first := FetchExchangeRate(order, provider, s, date, currency, Some(base));
    if first.result.Failure? then
      Catch(first.state, first.calls, first.result.error)
    else
      var previousDate := GetPreviousDate(date);
      var second := InvokeGetRate(provider, first.state, GetRateArguments(order, previousDate, currency, base));
      var calls := first.calls + second.calls;
      if second.result.Failure? then
        Catch(second.state, calls, second.result.error)
      else
        Handled(second.state, calls, [Rates(first.result.value, second.result.value)], None)
  }

  /**
   * The consumer's closure. A body that does not decode to the three fields,
   * or whose date `createFromFormat` rejects, leaves `false` or `null` where
   * a `DateTime` or string parameter is declared: a `TypeError`.
   */
  function HandleMessage<S>(order: ArgumentOrder, provider: Provider<S>, s: S, body: string): (h: Handled<S>)
    ensures ContainsFailures(h)
    ensures DecodeJob(body).None? ==> h == Handled(s, [], [], Some(TypeError))
    ensures DecodeJob(body).Some? && ParseDmy(DecodeJob(body).value.date).None? ==>
      h == Handled(s, [], [], Some(TypeError))
  {
    match DecodeJob(body)
    case None => Handled(s, [], [], Some(TypeError))
    case Some(fields) =>
      match ParseDmy(fields.date)
      case None => Handled(s, [], [], Some(TypeError))
      case Some(date) => HandleJob(order, provider, s, date, fields.currency, fields.baseCurrency)
  }

  /** One `fetchRatesWithQueue` call: what it published, what it consumed and what the callback saw. */
  datatype Run<S> = Run(
    published: seq<(string, string)>,
    delivered: string,
    discarded: seq<string>,
    broker: Broker,
    state: S,
    calls: seq<Call>,
    callbacks: seq<ExchangeRateResult>,
    escaped: Option<Error>)

  /**
   * `fetchRatesWithQueue`: exactly one message, the encoded job, is sent to
   * `exchange_rates_queue`; then the oldest message of that queue is handled
   * (the outcome is that of `HandleMessage` on it), and the queue is left
   * empty. The callback runs at most once, and exactly
   * once unless an error that is not an exception escapes.
   */
  function FetchRatesWithQueue<S>(order: ArgumentOrder, b: Broker, provider: Provider<S>, s: S,
                                  date: ValidDate, currency: string, base: string): (run: Run<S>)
    ensures run.published == [(RatesQueueName, EncodeJob(date, currency, base))]
    ensures [run.delivered] + run.discarded == Pending(b, RatesQueueName) + [EncodeJob(date, currency, base)]
    ensures Pending(run.broker, RatesQueueName) == []
    ensures var h := HandleMessage(order, provider, s, run.delivered);
      (run.state, run.calls, run.callbacks, run.escaped) == (h.state, h.calls, h.callbacks, h.escaped)
    ensures forall q :: q != RatesQueueName ==> Pending(run.broker, q) == Pending(b, q)
    ensures |run.callbacks| <= 1 && (|run.callbacks| == 1 <==> run.escaped.None?)
    ensures run.escaped.Some? ==> !run.escaped.value.IsException()
  {
    var message := EncodeJob(date, currency, base);
    var sent := Send(b, RatesQueueName, message);
    var (body, lost, b') := Deliver(sent, RatesQueueName);
    var h := HandleMessage(order, provider, s, body);
    Run([(RatesQueueName, message)], body, lost, b', h.state, h.calls, h.callbacks, h.escaped)
  }

  /**
   * The consumer reads back exactly the job the producer encoded: handling
   * the encoded message is handling the original date, currency and base.
   */
  lemma HandleOwnMessage<S>(order: ArgumentOrder, provider: Provider<S>, s: S,
                            date: ValidDate, currency: string, base: string)
    requires 0 <= date.year <= 9999
    ensures HandleMessage(order, provider, s, EncodeJob(date, currency, base))
         == HandleJob(order, provider, s, date, currency, base)
  {
    DecodeEncodeJob(date, currency, base);
    ParseFormatDmy(date);
  }

  /**
   * With the queue empty beforehand, the message consumed is the one just
   * sent, nothing is lost, and the job handled is the caller's.
   */
  lemma OwnJobRoundTrip<S>(order: ArgumentOrder, b: Broker, provider: Provider<S>, s: S,
                           date: ValidDate, currency: string, base: string)
    requires Pending(b, RatesQueueName) == []
    requires 0 <= date.year <= 9999
    ensures var run := FetchRatesWithQueue(order, b, provider, s, date, currency, base);
      && run.delivered == EncodeJob(date, currency, base)
      && run.discarded == []
      && var h := HandleJob(order, provider, s, date, currency, base);
         (run.state, run.calls, run.callbacks, run.escaped) == (h.state, h.calls, h.callbacks, h.escaped)
  {
    HandleOwnMessage(order, provider, s, date, currency, base);
  }

  /**
   * The consumer takes the oldest message: a job left in the queue by an
   * earlier run is handled instead of the caller's, and the caller's job is
   * delivered behind it and lost, never handled.
   */
  lemma OldestJobConsumedFirst<S>(order: ArgumentOrder, b: Broker, provider: Provider<S>, s: S,
                                  date: ValidDate, currency: string, base: string,
                                  stale: string, rest: seq<string>)
    requires Pending(b, RatesQueueName) == [stale] + rest
    ensures var run := FetchRatesWithQueue(order, b, provider, s, date, currency, base);
      && run.delivered == stale
      && run.discarded == rest + [EncodeJob(date, currency, base)]
      && var h := HandleMessage(order, provider, s, stale);
         (run.state, run.calls, run.callbacks, run.escaped) == (h.state, h.calls, h.callbacks, h.escaped)
  {
    var run := FetchRatesWithQueue(order, b, provider, s, date, currency, base);
    assert [run.delivered] + run.discarded == [stale] + (rest + [EncodeJob(date, currency, base)]);
  }

  /**
   * In the interface's order the handler asks for the rate on the date and,
   * if that succeeds, for the rate on the previous trading day with the same
   * currency and base. Two successes reach the callback as the two rates; an
   * exception from either reaches it as a failed result.
   */
  lemma HandleJobOutcome<S>(provider: Provider<S>, s: S, date: ValidDate, currency: string, base: string)
    ensures var h := HandleJob(InterfaceOrder, provider, s, date, currency, base);
      var (rate, s1) := provider(s, Call(date, currency, base));
      var previous := Call(GetPreviousDate(date), currency, base);
      var (previousRate, s2) := provider(s1, previous);
      && (rate.Failure? ==>
            && h.calls == [Call(date, currency, base)]
            && h.state == s1
            && h.callbacks == (if rate.error.IsException() then [Failed(rate.error.exception)] else []))
      && (rate.Success? ==>
            && h.calls == [Call(date, currency, base), previous]
            && h.state == s2
            && (previousRate.Success? ==> h.callbacks == [Rates(rate.value, previousRate.value)])
            && (previousRate.Failure? && previousRate.error.IsException() ==>
                  h.callbacks == [Failed(previousRate.error.exception)]))
  {
  }

  /** A provider whose only failures are exceptions (no `TypeError`, no division by zero). */
  ghost predicate RaisesOnlyExceptions<S(!new)>(provider: Provider<S>) {
    forall s: S, c: Call :: provider(s, c).0.Failure? ==> provider(s, c).0.error.IsException()
  }

  /**
   * With the calls in the interface's order and a provider that only throws
   * exceptions, the callback is invoked exactly once and nothing escapes.
   */
  lemma CallbackExactlyOnce<S(!new)>(b: Broker, provider: Provider<S>, s: S,
                               date: ValidDate, currency: string, base: string)
    requires RaisesOnlyExceptions(provider)
    requires Pending(b, RatesQueueName) == []
    requires 0 <= date.year <= 9999
    ensures |FetchRatesWithQueue(InterfaceOrder, b, provider, s, date, currency, base).callbacks| == 1
    ensures FetchRatesWithQueue(InterfaceOrder, b, provider, s, date, currency, base).escaped == None
  {
    OwnJobRoundTrip(InterfaceOrder, b, provider, s, date, currency, base);
    var (rate, s1) := provider(s, Call(date, currency, base));
    var (previousRate, s2) := provider(s1, Call(GetPreviousDate(date), currency, base));
    HandleJobOutcome(provider, s, date, currency, base);
  }

  /**
   * As written, lines 53 and 101 pass (currency, base, date) to a `getRate`
   * declared as (date, currency, base). Whatever message is consumed, the
   * provider never runs, a `TypeError` escapes the handler's
   * `catch (Exception $e)`, and the callback is never invoked.
   */
  lemma SourceOrderNeverCallsBack<S>(b: Broker, provider: Provider<S>, s: S,
                                     date: ValidDate, currency: string, base: string)
    ensures var run := FetchRatesWithQueue(SourceOrder, b, provider, s, date, currency, base);
      && run.calls == []
      && run.callbacks == []
      && run.escaped == Some(TypeError)
      && run.state == s
  {
  }

  /**
   * The unit test's scenario: 01.01.2022, USD against RUR, a provider that
   * answers 73.123 for that date and 72.123 for the previous trading day
   * (Friday 31.12.2021). The message sent is the test's JSON text (the keys
   * are the constants of `JobMessage`) and the callback receives both rates.
   */
  lemma QueueRoundTripExample(b: Broker, provider: Provider<int>)
    requires Pending(b, RatesQueueName) == []
    requires provider(0, Call(Date(2022, 1, 1), "USD", "RUR")) == (Success(73.123), 0)
    requires provider(0, Call(Date(2021, 12, 31), "USD", "RUR")) == (Success(72.123), 0)
    ensures var run := FetchRatesWithQueue(InterfaceOrder, b, provider, 0, Date(2022, 1, 1), "USD", "RUR");
      && run.published == [(RatesQueueName, (DateKey + "01.01.2022" + "\"") + (CurrencyKey + "USD" + "\"")
                                              + (BaseCurrencyKey + "RUR" + "\"") + ObjectEnd)]
      && run.callbacks == [Rates(73.123, 72.123)]
  {
    var date: ValidDate := Date(2022, 1, 1);
    EncodeJobExample();
    OwnJobRoundTrip(InterfaceOrder, b, provider, 0, date, "USD", "RUR");
    NewYearExample();
    HandleJobOutcome(provider, 0, date, "USD", "RUR");
  }

  /** The message published for USD against RUR on 2022-01-01: no field needs escaping. */
  lemma EncodeJobExample()
    ensures EncodeJob(Date(2022, 1, 1), "USD", "RUR")
         == (DateKey + "01.01.2022" + "\"") + (CurrencyKey + "USD" + "\"") + (BaseCurrencyKey + "RUR" + "\"") + ObjectEnd
  {
    FormatDmyExample();
    ExampleDateUnescaped();
    ExampleCodeUnescaped("USD");
    ExampleCodeUnescaped("RUR");
    EncodeJobOfUnescaped(Date(2022, 1, 1), "01.01.2022", "USD", "RUR");
  }

  lemma ExampleDateUnescaped()
    ensures Escape("01.01.2022") == "01.01.2022"
  {
    DateTextUnescaped("01.01.2022");
  }

  /** Neither currency code of the example needs escaping. */
  lemma ExampleCodeUnescaped(code: string)
    requires code == "USD" || code == "RUR"
    ensures Escape(code) == code
  {
    PlainTextUnescaped(code);
  }

  /** When no part needs escaping, the message is the three texts between the fixed keys. */
  lemma EncodeJobOfUnescaped(date: Date, dateText: string, currency: string, base: string)
    requires date.Valid() && FormatDmy(date) == dateText
    requires Escape(dateText) == dateText && Escape(currency) == currency && Escape(base) == base
    ensures EncodeJob(date, currency, base)
         == (DateKey + dateText + "\"") + (CurrencyKey + currency + "\"") + (BaseCurrencyKey + base + "\"") + ObjectEnd
  {
  }
}

=== FILE: date_format.dfy ===
/**
 * The two textual date layouts the service uses, and the parser PHP's
 * `DateTime::createFromFormat('d.m.Y', ...)` applies to them:
 *   - `d.m.Y`  (e.g. "01.01.2022") in the queue message and the feed URL,
 *   - `Ymd`    (e.g. "20220101") in the cache key.
 */
module DateFormat {
  import opened Wrappers
  import opened Calendar

  predicate IsDigit(c: char) {
    '0' <= c <= '9'
  }

  predicate AllDigits(s: string) {
    forall i :: 0 <= i < |s| ==> IsDigit(s[i])
  }

  function DigitChar(n: int): (c: char)
    requires 0 <= n <= 9
    ensures IsDigit(c)
  {
    ('0' as int + n) as char
  }

  function DigitValue(c: char): (n: nat)
    requires IsDigit(c)
    ensures n <= 9
  {
    c as int - '0' as int
  }

  /** The number a run of decimal digits denotes (most significant first). */
  function DigitsValue(s: string): nat
    requires AllDigits(s)
  {
    if |s| == 0 then 0 else 10 * DigitsValue(s[..|s| - 1]) + DigitValue(s[|s| - 1])
  }

  /** The shortest decimal spelling of `n`. */
  function NatDigits(n: nat): (s: string)
    ensures AllDigits(s) && DigitsValue(s) == n
    ensures 1 <= |s|
    ensures n < 10 ==> |s| == 1
    ensures n < 100 ==> |s| <= 2
    ensures n < 1000 ==> |s| <= 3
    ensures n < 10000 ==> |s| <= 4
  {
    if n < 10 then [DigitChar(n)]
    else
      var s := NatDigits(n / 10) + [DigitChar(n % 10)];
      assert s[..|s| - 1] == NatDigits(n / 10);
      s
  }

  /** Left-pads a digit run with zeros up to `width` characters. */
  function ZeroPad(s: string, width: nat): (r: string)
    requires AllDigits(s)
    ensures AllDigits(r) && DigitsValue(r) == DigitsValue(s)
    ensures |r| == if |s| >= width then |s| else width
    decreases width - |s|
  {
    if |s| >= width then s
    else
      LeadingZeroValue(s);
      ZeroPad(['0'] + s, width)
  }

  lemma {:induction false} LeadingZeroValue(s: string)
    requires AllDigits(s)
    ensures AllDigits(['0'] + s) && DigitsValue(['0'] + s) == DigitsValue(s)
    decreases |s|
  {
    var z := ['0'] + s;
    if |s| > 0 {
      assert z[..|z| - 1] == ['0'] + s[..|s| - 1];
      LeadingZeroValue(s[..|s| - 1]);
    }
  }

  /** PHP's `d` and `m` format characters: two digits with a leading zero. */
  function TwoDigits(n: int): (s: string)
    requires 0 <= n <= 99
    ensures |s| == 2 && AllDigits(s) && DigitsValue(s) == n
  {
    ZeroPad(NatDigits(n), 2)
  }

  /** PHP's `Y` format character: at least four digits, `-` before a negative year. */
  function FormatYear(y: int): (s: string)
    ensures y >= 0 ==> |s| >= 4 && AllDigits(s) && DigitsValue(s) == y
    ensures y < 0 ==> |s| >= 5 && s[0] == '-' && AllDigits(s[1..]) && DigitsValue(s[1..]) == -y
    ensures 0 <= y <= 9999 ==> |s| == 4
  {
    var digits := ZeroPad(NatDigits(if y < 0 then -y else y), 4);
    if y < 0 then "-" + digits else digits
  }

  /** The year text determines the year: a sign only for negative years, and the digits' value. */
  lemma FormatYearInjective(y1: int, y2: int)
    requires FormatYear(y1) == FormatYear(y2)
    ensures y1 == y2
  {
  }

  /** `$date->format('d.m.Y')`. */
  function FormatDmy(d: Date): (s: string)
    requires d.Valid()
    ensures |s| >= 10 && s[2] == '.' && s[5] == '.'
    ensures AllDigits(s[..2]) && DigitsValue(s[..2]) == d.day
    ensures AllDigits(s[3..5]) && DigitsValue(s[3..5]) == d.month
    ensures s[6..] == FormatYear(d.year)
  {
    var s := TwoDigits(d.day) + "." + TwoDigits(d.month) + "." + FormatYear(d.year);
    assert s[..2] == TwoDigits(d.day) && s[3..5] == TwoDigits(d.month);
    s
  }

  /** 2022-01-01 is written `01.01.2022`. */
  lemma FormatDmyExample()
    ensures FormatDmy(Date(2022, 1, 1)) == "01.01.2022"
  {
    assert NatDigits(1) == "1";
    assert TwoDigits(1) == "01";
    assert NatDigits(2) == "2";
    assert NatDigits(20) == "20";
    assert NatDigits(202) == "202";
    assert NatDigits(2022) == "2022";
    assert FormatYear(2022) == "2022";
  }

  /** `$date->format('Ymd')`. */
  function FormatYmd(d: Date): (s: string)
    requires d.Valid()
    ensures |s| >= 8 && s[..|s| - 4] == FormatYear(d.year)
    ensures AllDigits(s[|s| - 4..|s| - 2]) && DigitsValue(s[|s| - 4..|s| - 2]) == d.month
    ensures AllDigits(s[|s| - 2..]) && DigitsValue(s[|s| - 2..]) == d.day
  {
    FormatYear(d.year) + TwoDigits(d.month) + TwoDigits(d.day)
  }

  /** `$date->format('Y-m-d')`. */
  function FormatIsoDate(d: Date): (s: string)
    requires d.Valid()
    ensures |s| >= 10 && s[..|s| - 6] == FormatYear(d.year) && s[|s| - 6] == '-' && s[|s| - 3] == '-'
    ensures AllDigits(s[|s| - 5..|s| - 3]) && DigitsValue(s[|s| - 5..|s| - 3]) == d.month
    ensures AllDigits(s[|s| - 2..]) && DigitsValue(s[|s| - 2..]) == d.day
  {
    var s := FormatYear(d.year) + "-" + TwoDigits(d.month) + "-" + TwoDigits(d.day);
    assert s[|s| - 5..|s| - 3] == TwoDigits(d.month);
    s
  }

  /** How many leading characters of `s` are digits, capped at `max`. */
  function DigitRun(s: string, max: nat): (n: nat)
    ensures n <= max && n <= |s|
    ensures AllDigits(s[..n])
    ensures n < max && n < |s| ==> !IsDigit(s[n])
  {
    if max == 0 || |s| == 0 || !IsDigit(s[0]) then 0
    else
      var n := 1 + DigitRun(s[1..], max - 1);
      assert s[..n] == [s[0]] + s[1..][..n - 1];
      n
  }

  /**
   * One numeric field of `createFromFormat`: up to `max` digits, at least one.
   * Yields the number and how many characters it used.
   */
  function ReadNumber(s: string, max: nat): (r: Option<(nat, nat)>)
    ensures r.Some? ==> 1 <= r.value.1 <= max && r.value.1 <= |s|
  {
    var n := DigitRun(s, max);
    if n == 0 then None else Some((DigitsValue(s[..n]), n))
  }

  /**
   * `DateTime::createFromFormat('d.m.Y', s)` together with the validator's
   * rejection of impossible calendar dates: the day and month take one or
   * two digits, the year one to four, the fields are separated by dots and
   * nothing may follow.
   */
  function ParseDmy(s: string): (r: Option<Date>)
    ensures r.Some? ==> r.value.Valid() && 0 <= r.value.year <= 9999
  {
    match ReadNumber(s, 2)
    case None => None
    case Some((day, i)) =>
      if i < |s| && s[i] == '.' then
        var rest := s[i + 1..];
        match ReadNumber(rest, 2)
        case None => None
        case Some((month, j)) =>
          if j < |rest| && rest[j] == '.' then
            var tail := rest[j + 1..];
            match ReadNumber(tail, 4)
            case None => None
            case Some((year, k)) =>
              if k == |tail| && Date(year, month, day).Valid() then
                assert DigitsValue(tail[..k]) == year;
                DigitsBound(tail[..k]);
                Some(Date(year, month, day))
              else None
          else None
      else None
  }

  lemma {:induction false} DigitsBound(s: string)
    requires AllDigits(s) && |s| <= 4
    ensures DigitsValue(s) <= 9999
    ensures |s| <= 3 ==> DigitsValue(s) <= 999
    ensures |s| <= 2 ==> DigitsValue(s) <= 99
    ensures |s| <= 1 ==> DigitsValue(s) <= 9
  {
    if |s| > 0 {
      DigitsBound(s[..|s| - 1]);
    }
  }

  /** A run of exactly `max` digits is read whole, whatever follows it. */
  lemma ReadFullField(ds: string, t: string, max: nat)
    requires AllDigits(ds) && |ds| == max && max >= 1
    ensures ReadNumber(ds + t, max) == Some((DigitsValue(ds), max))
  {
    var s := ds + t;
    DigitRunOfDigits(ds, t, max);
    assert s[..max] == ds;
  }

  lemma {:induction false} DigitRunOfDigits(ds: string, t: string, max: nat)
    requires AllDigits(ds) && |ds| == max
    ensures DigitRun(ds + t, max) == max
    decreases max
  {
    if max > 0 {
      assert (ds + t)[1..] == ds[1..] + t;
      DigitRunOfDigits(ds[1..], t, max - 1);
    }
  }

  /**
   * Round trip: parsing the `d.m.Y` text of a valid date with a four-digit
   * year gives that date back.
   */
  lemma ParseFormatDmy(d: Date)
    requires d.Valid() && 0 <= d.year <= 9999
    ensures ParseDmy(FormatDmy(d)) == Some(d)
  {
    var dd, mm, yy := TwoDigits(d.day), TwoDigits(d.month), FormatYear(d.year);
    var s := FormatDmy(d);
    assert s == dd + ("." + mm + "." + yy);
    ReadFullField(dd, "." + mm + "." + yy, 2);
    var rest := s[3..];
    assert rest == mm + ("." + yy);
    ReadFullField(mm, "." + yy, 2);
    var tail := rest[3..];
    assert tail == yy + "";
    ReadFullField(yy, "", 4);
  }

  /** Distinct valid dates have distinct `d.m.Y` texts. */
  lemma FormatDmyInjective(d1: Date, d2: Date)
    requires d1.Valid() && d2.Valid()
    requires FormatDmy(d1) == FormatDmy(d2)
    ensures d1 == d2
  {
    var s := FormatDmy(d1);
    assert s[..2] == TwoDigits(d1.day) && s[..2] == TwoDigits(d2.day);
    assert s[3..5] == TwoDigits(d1.month) && s[3..5] == TwoDigits(d2.month);
    assert s[6..] == FormatYear(d1.year) && s[6..] == FormatYear(d2.year);
    FormatYearInjective(d1.year, d2.year);
  }

  /** Distinct valid dates have distinct `Ymd` texts. */
  lemma FormatYmdInjective(d1: Date, d2: Date)
    requires d1.Valid() && d2.Valid()
    requires FormatYmd(d1) == FormatYmd(d2)
    ensures d1 == d2
  {
    var s := FormatYmd(d1);
    var n := |s| - 4;
    assert s[..n] == FormatYear(d1.year) && s[..n] == FormatYear(d2.year);
    assert s[n..n + 2] == TwoDigits(d1.month) && s[n..n + 2] == TwoDigits(d2.month);
    assert s[n + 2..] == TwoDigits(d1.day) && s[n + 2..] == TwoDigits(d2.day);
    FormatYearInjective(d1.year, d2.year);
  }

  /** Distinct valid dates have distinct `Y-m-d` texts. */
  lemma FormatIsoDateInjective(d1: Date, d2: Date)
    requires d1.Valid() && d2.Valid()
    requires FormatIsoDate(d1) == FormatIsoDate(d2)
    ensures d1 == d2
  {
    var s := FormatIsoDate(d1);
    var n := |s| - 6;
    assert s[..n] == FormatYear(d1.year) && s[..n] == FormatYear(d2.year);
    assert s[n + 1..n + 3] == TwoDigits(d1.month) && s[n + 1..n + 3] == TwoDigits(d2.month);
    assert s[n + 4..] == TwoDigits(d1.day) && s[n + 4..] == TwoDigits(d2.day);
    FormatYearInjective(d1.year, d2.year);
  }
}

=== FILE: exchange_rate_result.dfy ===
/**
 * `ExchangeRateResult`, the value the queue handler hands to its callback.
 * The class has three nullable fields but is only ever built in two shapes:
 * both rates and no exception, or no rates and an exception. The datatype
 * keeps exactly those two, so "both" and "neither" cannot be written down.
 * Its fields are set once, by the constructor; there are no setters.
 */
module RateResult {
  import opened Wrappers
  import opened Failures

  datatype ExchangeRateResult =
    | Rates(rate: real, previousRate: real)
    | Failed(exception: Exception)

  /**
   * `getRate()`: declared to return a non-nullable float, so it is only
   * meaningful when the rate was set.
   */
  function GetRate(r: ExchangeRateResult): real
    requires r.Rates?
  {
    r.rate
  }

  /** `getPreviousRate()`, under the same condition as `getRate()`. */
  function GetPreviousRate(r: ExchangeRateResult): real
    requires r.Rates?
  {
    r.previousRate
  }

  /** `getException()`: null unless the result was built from an exception. */
  function GetException(r: ExchangeRateResult): Option<Exception> {
    if r.Failed? then Some(r.exception) else None
  }

  /**
   * The getters give back exactly what the constructor was given, and a
   * result built from rates alone carries no exception.
   */
  lemma ConstructorGetters(rate: real, previousRate: real, e: Exception)
    ensures GetRate(Rates(rate, previousRate)) == rate
    ensures GetPreviousRate(Rates(rate, previousRate)) == previousRate
    ensures GetException(Rates(rate, previousRate)) == None
    ensures GetException(Failed(e)) == Some(e)
  {
  }

  /** A result has rates to read exactly when it carries no exception. */
  lemma RatesReadableIffNoException(r: ExchangeRateResult)
    ensures r.Rates? <==> GetException(r).None?
  {
  }
}

=== FILE: failures.dfy ===
/**
 * What can go wrong in the pipeline, split the way PHP splits it: an
 * `Exception` can be caught by the `catch (Exception $e)` blocks of the
 * provider, the queue handler and the command; an `Error` that is not an
 * exception (a `TypeError` from a parameter or return type check, a
 * `DivisionByZeroError`, the `ValueError` of `loadXML('')`) passes through
 * all of them.
 */
module Failures {

  datatype Exception =
    | FetchFailed(url: string)             // the HTTP client's GuzzleException
    | CurrencyNodeNotFound(code: string)   // "Currency node not found: <code>"
    | RateValueNotFound                    // "Rate value not found"
    | NominalValueNotFound                 // "Nominal value not found"
    | CurrencyCodeNotFound(code: string)   // "Currency code <code> not found"

  datatype Error =
    | Thrown(exception: Exception)
    | TypeError
    | DivisionByZero
    | ValueError
  {
    /** Caught by `catch (Exception $e)`. */
    predicate IsException() {
      Thrown?
    }
  }
}

=== FILE: fetch_command.dfy ===
/**
 * `FetchExchangeRatesCommand` (`app:fetch-exchange-rates date currency
 * [base_currency]`): validates its arguments, runs the queue round trip of
 * the service, and prints what the callback receives.
 *
 * Console output is a list of `Line`s; how PHP renders a float inside a line
 * is not modelled, so rates are kept as numbers. The current date is a
 * parameter. Like the service, the command is parametrised by the order in
 * which the service hands its arguments to the provider: as written
 * (`SourceOrder`), every accepted input ends in a `TypeError`
 * (`AsWrittenAcceptedInputCrashes`).
 */
module FetchCommand {
  import opened Wrappers
  import opened Failures
  import opened Calendar
  import opened DateFormat
  import opened RateResult
  import opened JobMessage
  import opened MessageBroker
  import opened TradingDays
  import opened CurrencyService

  /** `Command::SUCCESS`. */
  const ExitSuccess: int := 0


  const InvalidDateFormatMessage: string := "Invalid date format. Please use 'd.m.Y' format."
  const InvalidCurrencyMessage: string := "Invalid currency code. Please provide a 3-letter uppercase currency code."
  const InvalidBaseCurrencyMessage: string :=
    "Invalid base currency code. Please provide a 3-letter uppercase currency code."
  const FutureDateMessage: string := "Invalid date. The date cannot be greater than today's date"
  const TryLaterMessage: string := "Failed to get exchange rates. Try later."

  /** The value of `base_currency`: the argument when given, `RUR` otherwise. */
  function BaseCurrencyArgument(given: Option<string>): (base: string)
    ensures given.Some? ==> base == given.value
    ensures given.None? ==> base == "RUR"
  {
    given.GetOr(DefaultBaseCurrency)
  }

  // ---------------------------------------------------------------------
  // Validation
  // ---------------------------------------------------------------------

  predicate IsUpperLetter(c: char) {
    'A' <= c <= 'Z'
  }

  /** What the error messages ask for: exactly three upper-case Latin letters. */
  predicate IsCurrencyCode(s: string) {
    |s| == 3 && forall i :: 0 <= i < 3 ==> IsUpperLetter(s[i])
  }

  /**
   * The PCRE pattern `/^[A-Z]{3}$/` as written: without the `D` modifier,
   * `$` also matches just before a final newline.
   */
  predicate MatchesCodePattern(s: string) {
    IsCurrencyCode(s) || (|s| == 4 && IsCurrencyCode(s[..3]) && s[3] == '\n')
  }

  /**
   * Which checks `validateInput` applies. `AsWritten` is the Symfony
   * constraints of lines 128-129: like every Symfony constraint, `DateTime`
   * and `Regex` accept the empty string, and the regex accepts a trailing
   * newline. `Intended` is what the error messages promise: a `d.m.Y` date
   * and three upper-case letters.
   */
  datatype Checks = AsWritten | Intended

  /** No violation of `DateTime(format: 'd.m.Y')`. */
  predicate DateAccepted(checks: Checks, text: string) {
    match checks
    case AsWritten => text == "" || ParseDmy(text).Some?
    case Intended => ParseDmy(text).Some?
  }

  /** No violation of `Regex('/^[A-Z]{3}$/')`. */
  predicate CodeAccepted(checks: Checks, text: string) {
    match checks
    case AsWritten => text == "" || MatchesCodePattern(text)
    case Intended => IsCurrencyCode(text)
  }

  /**
   * `$dateObj > $today`, compared by calendar day. When `createFromFormat`
   * fails it returns `false`, which is never greater than a `DateTime`.
   */
  predicate AfterToday(text: string, today: ValidDate) {
    ParseDmy(text).Some? && DayNumber(ParseDmy(text).value) > DayNumber(today)
  }

  /** The `InvalidArgumentException`s of `validateInput`. */
  datatype InputError = InvalidDateFormat | InvalidCurrency | InvalidBaseCurrency | DateInFuture

  function Message(e: InputError): string {
    match e
    case InvalidDateFormat => InvalidDateFormatMessage
    case InvalidCurrency => InvalidCurrencyMessage
    case InvalidBaseCurrency => InvalidBaseCurrencyMessage
    case DateInFuture => FutureDateMessage
  }

  /** Each failed check has its own message, so the line printed names the check. */
  lemma MessagesDistinct(e1: InputError, e2: InputError)
    requires Message(e1) == Message(e2)
    ensures e1 == e2
  {
  }

  /**
   * `validateInput`: the first check that fails, in the order date format,
   * currency, base currency, date not after today; `None` when all pass.
   */
  function ValidateInput(checks: Checks, dateText: string, currency: string, base: string,
                         today: ValidDate): (r: Option<InputError>)
    ensures r.None? <==>
      DateAccepted(checks, dateText) && CodeAccepted(checks, currency) && CodeAccepted(checks, base)
      && !AfterToday(dateText, today)
    ensures r == Some(InvalidDateFormat) <==> !DateAccepted(checks, dateText)
    ensures r == Some(InvalidCurrency) <==> DateAccepted(checks, dateText) && !CodeAccepted(checks, currency)
    ensures r == Some(InvalidBaseCurrency) <==>
      DateAccepted(checks, dateText) && CodeAccepted(checks, currency) && !CodeAccepted(checks, base)
    ensures r == Some(DateInFuture) <==>
      DateAccepted(checks, dateText) && CodeAccepted(checks, currency) && CodeAccepted(checks, base)
      && AfterToday(dateText, today)
  {
    if !DateAccepted(checks, dateText) then Some(InvalidDateFormat)
    else if !CodeAccepted(checks, currency) then Some(InvalidCurrency)
    else if !CodeAccepted(checks, base) then Some(InvalidBaseCurrency)
    else if AfterToday(dateText, today) then Some(DateInFuture)
    else None
  }

  /**
   * Input the intended checks accept is a real date no later than today and
   * two three-letter codes.
   */
  lemma IntendedAcceptance(dateText: string, currency: string, base: string, today: ValidDate)
    ensures ValidateInput(Intended, dateText, currency, base, today).None? <==>
      && ParseDmy(dateText).Some?
      && DayNumber(ParseDmy(dateText).value) <= DayNumber(today)
      && IsCurrencyCode(currency) && IsCurrencyCode(base)
  {
  }

  /** The constraints as written accept everything the intended checks accept. */
  lemma IntendedIsStricter(dateText: string, currency: string, base: string, today: ValidDate)
    requires ValidateInput(Intended, dateText, currency, base, today).None?
    ensures ValidateInput(AsWritten, dateText, currency, base, today).None?
  {
  }

  /**
   * As written, any input the intended checks accept is still accepted when a
   * newline follows the currency code; the intended checks reject it.
   */
  lemma TrailingNewlineAccepted(dateText: string, currency: string, base: string, today: ValidDate)
    requires ValidateInput(Intended, dateText, currency, base, today).None?
    ensures ValidateInput(AsWritten, dateText, currency + "\n", base, today).None?
    ensures ValidateInput(Intended, dateText, currency + "\n", base, today) == Some(InvalidCurrency)
  {
    assert (currency + "\n")[..3] == currency;
  }

  /** `01.01.2022` is read as 1 January 2022. */
  lemma DateExampleParses()
    ensures ParseDmy("01.01.2022") == Some(Date(2022, 1, 1))
  {
    FormatDmyExample();
    ParseFormatDmy(Date(2022, 1, 1));
  }

  /** As written, empty arguments pass every constraint, including the future-date check. */
  lemma EmptyArgumentsAccepted(today: ValidDate)
    ensures ValidateInput(AsWritten, "", "", "", today).None?
    ensures ValidateInput(Intended, "", "", "", today) == Some(InvalidDateFormat)
  {
  }

  // ---------------------------------------------------------------------
  // Output of the callback
  // ---------------------------------------------------------------------

  /** One `writeln` of the command; `ErrorLine` is wrapped in `<error>` tags. */
  datatype Line =
    | ErrorLine(message: string)
    | BaseCurrencyLine(base: string)
    | RateLine(currency: string, isoDate: string, rate: real)
    | PreviousRateLine(previousRate: real)
    | DifferenceLine(sign: string, tenThousandths: int)

  /** The nearest integer to `y`, halves rounded away from zero (PHP's `round`). */
  function RoundHalfAwayFromZero(y: real): (k: int)
    ensures y >= 0.0 ==> k as real - 0.5 <= y < k as real + 0.5
    ensures y < 0.0 ==> k as real - 0.5 < y <= k as real + 0.5
  {
    if y >= 0.0 then (y + 0.5).Floor else -((-y + 0.5).Floor)
  }

  /** `number_format($x, 4)`, as the number of ten-thousandths it shows. */
  function NumberFormat4(x: real): (k: int)
    ensures -0.5 <= x * 10000.0 - k as real <= 0.5
  {
    RoundHalfAwayFromZero(x * 10000.0)
  }

  /**
   * `($difference >= 0 ? '+' : '')`: `number_format` never yields a negative
   * zero, so the `+` appears exactly when the rounded value is not negative.
   */
  function SignPrefix(tenThousandths: int): string {
    if tenThousandths >= 0 then "+" else ""
  }

  /** The callback closure of `execute`. */
  function Callback(result: ExchangeRateResult, date: ValidDate, currency: string, base: string): (lines: seq<Line>)
    ensures GetException(result).Some? ==> lines == [ErrorLine(TryLaterMessage)]
    ensures GetException(result).None? ==>
      && |lines| == 4
      && lines[0] == BaseCurrencyLine(base)
      && lines[1] == RateLine(currency, FormatIsoDate(date), GetRate(result))
      && lines[2] == PreviousRateLine(GetPreviousRate(result))
  {
    if GetException(result).Some? then [ErrorLine(TryLaterMessage)]
    else
      var difference := NumberFormat4(GetRate(result) - GetPreviousRate(result));
      [ BaseCurrencyLine(base),
        RateLine(currency, FormatIsoDate(date), GetRate(result)),
        PreviousRateLine(GetPreviousRate(result)),
        DifferenceLine(SignPrefix(difference), difference) ]
  }

  /**
   * The difference line carries a `+` exactly when the rate fell by less than
   * half a ten-thousandth (or rose), and shows the difference to within half
   * a ten-thousandth.
   */
  lemma DifferenceLineMeaning(rate: real, previousRate: real, date: ValidDate, currency: string, base: string)
    ensures var line := Callback(Rates(rate, previousRate), date, currency, base)[3];
      && (line.sign == "+" <==> rate - previousRate > -0.00005)
      && -0.5 <= (rate - previousRate) * 10000.0 - line.tenThousandths as real <= 0.5
  {
  }

  /** A rate that did not fall is reported with a `+`. */
  lemma RisingRateHasPlusSign(rate: real, previousRate: real, date: ValidDate, currency: string, base: string)
    requires rate >= previousRate
    ensures Callback(Rates(rate, previousRate), date, currency, base)[3].sign == "+"
  {
    DifferenceLineMeaning(rate, previousRate, date, currency, base);
  }

  /**
   * All the lines the callback printed, one invocation after another: one
   * or four lines per invocation.
   */
  function CallbackLines(results: seq<ExchangeRateResult>, date: ValidDate, currency: string, base: string): (lines: seq<Line>)
    ensures |results| <= |lines| <= 4 * |results|
    ensures |results| == 1 ==> lines == Callback(results[0], date, currency, base)
  {
    if |results| == 0 then []
    else Callback(results[0], date, currency, base) + CallbackLines(results[1..], date, currency, base)
  }

  // ---------------------------------------------------------------------
  // execute
  // ---------------------------------------------------------------------

  /** How `execute` ends: it returns a status code, or an `Error` escapes it. */
  datatype Exit = Returned(code: int) | Crashed(error: Error)

  /** Everything one run of the command does. */
  datatype Outcome<S> = Outcome(
    lines: seq<Line>,
    published: seq<(string, string)>,
    broker: Broker,
    state: S,
    exit: Exit)

  /**
   * `execute`. Invalid input prints the exception's message and touches
   * nothing else. Otherwise the date is parsed again and the service runs
   * with the callback; whatever the callback printed is output, and an
   * `Error` that escapes the service (not an `Exception`) escapes the command.
   * If the date text is empty — which only the constraints as written let
   * through — `createFromFormat` returns `false` and passing it where a
   * `DateTime` is declared raises a `TypeError`.
   */
  function Execute<S>(checks: Checks, order: ArgumentOrder, dateText: string, currency: string, baseArgument: Option<string>,
                      today: ValidDate, b: Broker, provider: Provider<S>, s: S): (o: Outcome<S>)
    ensures o.exit.Returned? ==> o.exit.code == ExitSuccess
    ensures ValidateInput(checks, dateText, currency, BaseCurrencyArgument(baseArgument), today).Some? ==>
      && o.published == [] && o.broker == b && o.state == s
      && o.lines == [ErrorLine(Message(ValidateInput(checks, dateText, currency,
                                                       BaseCurrencyArgument(baseArgument), today).value))]
    ensures o.exit.Crashed? ==> !o.exit.error.IsException()
    ensures ValidateInput(checks, dateText, currency, BaseCurrencyArgument(baseArgument), today).None? ==>
      o.published == (if ParseDmy(dateText).None? then []
                      else [(RatesQueueName, EncodeJob(ParseDmy(dateText).value, currency, BaseCurrencyArgument(baseArgument)))])
    ensures checks == Intended && ValidateInput(checks, dateText, currency, BaseCurrencyArgument(baseArgument), today).None? ==>
      o.published == [(RatesQueueName, EncodeJob(ParseDmy(dateText).value, currency, BaseCurrencyArgument(baseArgument)))]
  {
    var base := BaseCurrencyArgument(baseArgument);
    match ValidateInput(checks, dateText, currency, base, today)
    case Some(e) => Outcome([ErrorLine(Message(e))], [], b, s, Returned(ExitSuccess))
    case None =>
      match ParseDmy(dateText)
      case None => Outcome([], [], b, s, Crashed(TypeError))
      case Some(date) =>
        var run := FetchRatesWithQueue(order, b, provider, s, date, currency, base);
        var lines := CallbackLines(run.callbacks, date, currency, base);
        var exit := if run.escaped.None? then Returned(ExitSuccess) else Crashed(run.escaped.value);
        Outcome(lines, run.published, run.broker, run.state, exit)
  }

  /**
   * Accepted input with a parsable date runs the service once on that date
   * and prints exactly what the callback printed.
   */
  lemma AcceptedInputRunsService<S>(checks: Checks, order: ArgumentOrder, dateText: string, currency: string, baseArgument: Option<string>,
                                    today: ValidDate, b: Broker, provider: Provider<S>, s: S)
    requires ValidateInput(checks, dateText, currency, BaseCurrencyArgument(baseArgument), today).None?
    requires ParseDmy(dateText).Some?
    ensures var base := BaseCurrencyArgument(baseArgument);
      var date := ParseDmy(dateText).value;
      var run := FetchRatesWithQueue(order, b, provider, s, date, currency, base);
      var o := Execute(checks, order, dateText, currency, baseArgument, today, b, provider, s);
      && o.lines == CallbackLines(run.callbacks, date, currency, base)
      && (o.published, o.broker, o.state) == (run.published, run.broker, run.state)
      && (o.exit == Returned(ExitSuccess) <==> run.escaped.None?)
  {
  }

  /**
   * The command as written: whatever input `validateInput` lets through, the
   * command prints nothing and dies with a `TypeError`, never returning
   * `SUCCESS`. A parsable date still gets its job published first; the
   * handler's `getRate` call then fails its parameter type check.
   */
  lemma AsWrittenAcceptedInputCrashes<S>(dateText: string, currency: string, baseArgument: Option<string>,
                                         today: ValidDate, b: Broker, provider: Provider<S>, s: S)
    requires ValidateInput(AsWritten, dateText, currency, BaseCurrencyArgument(baseArgument), today).None?
    ensures var o := Execute(AsWritten, SourceOrder, dateText, currency, baseArgument, today, b, provider, s);
      && o.exit == Crashed(TypeError)
      && o.lines == []
      && o.state == s
  {
    if ParseDmy(dateText).Some? {
      SourceOrderNeverCallsBack(b, provider, s, ParseDmy(dateText).value, currency, BaseCurrencyArgument(baseArgument));
    }
  }

  /** Leaving out `base_currency` is the same as passing `RUR`. */
  lemma DefaultBaseIsRur<S>(checks: Checks, order: ArgumentOrder, dateText: string, currency: string, today: ValidDate,
                            b: Broker, provider: Provider<S>, s: S)
    ensures Execute(checks, order, dateText, currency, None, today, b, provider, s)
         == Execute(checks, order, dateText, currency, Some("RUR"), today, b, provider, s)
  {
  }

  /**
   * With the intended checks, an empty queue and a provider that only throws
   * exceptions, the command always returns `SUCCESS`, and accepted input is
   * answered by exactly one callback: the error line, or the four rate lines.
   */
  lemma IntendedRunAnswersOnce<S(!new)>(dateText: string, currency: string, baseArgument: Option<string>,
                                        today: ValidDate, b: Broker, provider: Provider<S>, s: S)
    requires RaisesOnlyExceptions(provider)
    requires Pending(b, RatesQueueName) == []
    ensures var o := Execute(Intended, InterfaceOrder, dateText, currency, baseArgument, today, b, provider, s);
      && o.exit == Returned(ExitSuccess)
      && (|o.lines| == 1 || |o.lines| == 4)
  {
    var base := BaseCurrencyArgument(baseArgument);
    if ValidateInput(Intended, dateText, currency, base, today).None? {
      var date := ParseDmy(dateText).value;
      CallbackExactlyOnce(b, provider, s, date, currency, base);
    }
  }

  /**
   * As written, an empty date passes validation and the command dies with a
   * `TypeError` before anything is sent or printed; the intended checks
   * report the invalid date format instead.
   */
  lemma EmptyDateCrashes<S>(order: ArgumentOrder, currency: string, baseArgument: Option<string>, today: ValidDate,
                            b: Broker, provider: Provider<S>, s: S)
    requires CodeAccepted(AsWritten, currency) && CodeAccepted(AsWritten, BaseCurrencyArgument(baseArgument))
    ensures var o := Execute(AsWritten, order, "", currency, baseArgument, today, b, provider, s);
      o.exit == Crashed(TypeError) && o.lines == [] && o.published == []
    ensures var o := Execute(Intended, order, "", currency, baseArgument, today, b, provider, s);
      o.exit == Returned(ExitSuccess) && o.lines == [ErrorLine(InvalidDateFormatMessage)] && o.published == []
  {
  }

  /**
   * The unit test's scenario run through the command on 10.01.2022, for any
   * date argument that denotes 1 January 2022 (such as `01.01.2022`, see
   * `DateExampleParses`) and any two valid codes (USD and the default RUR in
   * the test): the report names the base, the rate on 2022-01-01, the rate
   * of the previous trading day, and a difference of +1.0000.
   */
  lemma CommandExample(dateText: string, currency: string, baseArgument: Option<string>,
                       b: Broker, provider: Provider<int>)
    requires ParseDmy(dateText) == Some(Date(2022, 1, 1))
    requires IsCurrencyCode(currency) && IsCurrencyCode(BaseCurrencyArgument(baseArgument))
    requires Pending(b, RatesQueueName) == []
    requires provider(0, Call(Date(2022, 1, 1), currency, BaseCurrencyArgument(baseArgument))) == (Success(73.123), 0)
    requires provider(0, Call(Date(2021, 12, 31), currency, BaseCurrencyArgument(baseArgument))) == (Success(72.123), 0)
    ensures var o := Execute(Intended, InterfaceOrder, dateText, currency, baseArgument, Date(2022, 1, 10), b, provider, 0);
      && o.exit == Returned(ExitSuccess)
      && o.lines == [ BaseCurrencyLine(BaseCurrencyArgument(baseArgument)),
                      RateLine(currency, "2022-01-01", 73.123),
                      PreviousRateLine(72.123),
                      DifferenceLine("+", 10000) ]
  {
    var base := BaseCurrencyArgument(baseArgument);
    var date: ValidDate := Date(2022, 1, 1);
    assert ValidateInput(Intended, dateText, currency, base, Date(2022, 1, 10)).None? by {
      assert DayNumber(Date(2022, 1, 1)) <= DayNumber(Date(2022, 1, 10));
      IntendedAcceptance(dateText, currency, base, Date(2022, 1, 10));
    }
    AcceptedInputRunsService(Intended, InterfaceOrder, dateText, currency, baseArgument, Date(2022, 1, 10), b, provider, 0);
    var run := FetchRatesWithQueue(InterfaceOrder, b, provider, 0, date, currency, base);
    assert run.callbacks == [Rates(73.123, 72.123)] && run.escaped.None? by {
      OwnJobRoundTrip(InterfaceOrder, b, provider, 0, date, currency, base);
      NewYearExample();
      HandleJobOutcome(provider, 0, date, currency, base);
    }
    CallbackExample(currency, base);
  }

  /** The report for the unit test's rates. */
  lemma CallbackExample(currency: string, base: string)
    ensures Callback(Rates(73.123, 72.123), Date(2022, 1, 1), currency, base)
         == [ BaseCurrencyLine(base),
              RateLine(currency, "2022-01-01", 73.123),
              PreviousRateLine(72.123),
              DifferenceLine("+", 10000) ]
  {
    IsoDateExample();
    assert NumberFormat4(73.123 - 72.123) == 10000;
  }

  /** 2022-01-01 as `Y-m-d`. */
  lemma IsoDateExample()
    ensures FormatIsoDate(Date(2022, 1, 1)) == "2022-01-01"
  {
    FormatDmyExample();
  }
}

=== FILE: job_message.dfy ===
/**
 * The queue message of `fetchRatesWithQueue`: the three-field JSON object
 * `{"date":"d.m.Y","currency":...,"base_currency":...}` that `json_encode`
 * writes for the job, and the reading of it back by the consumer.
 *
 * String escaping follows `json_encode` with default flags: `"`, `\` and `/`
 * are backslash-escaped, control characters use their short escape or
 * `\u00xx`, and every non-ASCII character is written as `\uxxxx` (a surrogate
 * pair above U+FFFF), with lower-case hex digits.
 */
module JobMessage {
  import opened Wrappers
  import opened Calendar
  import opened DateFormat

  /** One job as the consumer reads it back: the three field texts. */
  datatype JobFields = JobFields(date: string, currency: string, baseCurrency: string)

  /** Every character is ASCII, as `json_encode` writes without `JSON_UNESCAPED_UNICODE`. */
  predicate IsAscii(s: string) {
    forall i :: 0 <= i < |s| ==> s[i] < '\U{80}'
  }

  function HexDigit(n: int): (c: char)
    requires 0 <= n < 16
    ensures c < '\U{80}'
  {
    if n < 10 then ('0' as int + n) as char else ('a' as int + n - 10) as char
  }

  predicate IsHex(c: char) {
    ('0' <= c <= '9') || ('a' <= c <= 'f') || ('A' <= c <= 'F')
  }

  function HexValue(c: char): (n: int)
    requires IsHex(c)
    ensures 0 <= n < 16
  {
    if c <= '9' then c as int - '0' as int
    else if c <= 'F' then c as int - 'A' as int + 10
    else c as int - 'a' as int + 10
  }

  /** Four lower-case hex digits of a UTF-16 code unit. */
  function Hex4(n: int): (s: string)
    requires 0 <= n <= 0xFFFF
    ensures |s| == 4 && IsAscii(s)
  {
    [HexDigit(n / 4096), HexDigit(n / 256 % 16), HexDigit(n / 16 % 16), HexDigit(n % 16)]
  }

  function Hex4Value(s: string): (n: int)
    requires |s| == 4 && IsHex(s[0]) && IsHex(s[1]) && IsHex(s[2]) && IsHex(s[3])
    ensures 0 <= n <= 0xFFFF
  {
    4096 * HexValue(s[0]) + 256 * HexValue(s[1]) + 16 * HexValue(s[2]) + HexValue(s[3])
  }

  predicate IsHex4(s: string) {
    |s| == 4 && IsHex(s[0]) && IsHex(s[1]) && IsHex(s[2]) && IsHex(s[3])
  }

  lemma HexDigitValue(n: int)
    requires 0 <= n < 16
    ensures IsHex(HexDigit(n)) && HexValue(HexDigit(n)) == n
  {
  }

  lemma Hex4RoundTrip(n: int)
    requires 0 <= n <= 0xFFFF
    ensures IsHex4(Hex4(n)) && Hex4Value(Hex4(n)) == n
  {
    var a, b, c, d := n / 4096, n / 256 % 16, n / 16 % 16, n % 16;
    HexDigitValue(a);
    HexDigitValue(b);
    HexDigitValue(c);
    HexDigitValue(d);
    assert n / 256 == 16 * a + b;
    assert n / 16 == 16 * (n / 256) + c;
    assert n == 16 * (n / 16) + d;
  }

  /** `\u` followed by the four hex digits of `n`. */
  function UnicodeEscape(n: int): (s: string)
    requires 0 <= n <= 0xFFFF
    ensures |s| == 6 && IsAscii(s)
  {
    "\\u" + Hex4(n)
  }

  /** The two-character escapes `json_encode` uses: the letter after the backslash. */
  function ShortEscape(c: char): Option<char> {
    if c == '"' then Some('"')
    else if c == '\\' then Some('\\')
    else if c == '/' then Some('/')
    else if c == '\U{8}' then Some('b')
    else if c == '\U{C}' then Some('f')
    else if c == '\n' then Some('n')
    else if c == '\r' then Some('r')
    else if c == '\t' then Some('t')
    else None
  }

  /** The character a two-character escape `\e` stands for, when `e` is one. */
  function ShortUnescape(e: char): Option<char> {
    if e == '"' then Some('"')
    else if e == '\\' then Some('\\')
    else if e == '/' then Some('/')
    else if e == 'b' then Some('\U{8}')
    else if e == 'f' then Some('\U{C}')
    else if e == 'n' then Some('\n')
    else if e == 'r' then Some('\r')
    else if e == 't' then Some('\t')
    else None
  }

  /** A character above U+FFFF as its UTF-16 surrogate pair, each unit escaped. */
  function SurrogatePair(n: int): (s: string)
    requires 0x10000 <= n <= 0x10FFFF
    ensures |s| == 12 && IsAscii(s)
  {
    var v := n - 0x10000;
    UnicodeEscape(0xD800 + v / 0x400) + UnicodeEscape(0xDC00 + v % 0x400)
  }

  /** How `json_encode` writes one character inside a string literal. */
  function EscapeChar(c: char): (s: string)
    ensures |s| >= 1 && IsAscii(s)
  {
    var n := c as int;
    if ShortEscape(c).Some? then ['\\', ShortEscape(c).value]
    else if n < 0x20 || (0x80 <= n <= 0xFFFF) then UnicodeEscape(n)
    else if n < 0x80 then [c]
    else SurrogatePair(n)
  }

  /**
   * The body of a JSON string literal for `s`, without the quotes: at least
   * one character per input character, and only ASCII.
   */
  function Escape(s: string): (r: string)
    ensures |r| >= |s| && IsAscii(r)
  {
    if |s| == 0 then "" else EscapeChar(s[0]) + Escape(s[1..])
  }

  /** `json_encode` of a PHP string. */
  function EncodeString(s: string): string {
    "\"" + Escape(s) + "\""
  }

  /** What precedes each member's string value; each value is closed by a quote. */
  const DateKey: string := "{\"date\":\""
  const CurrencyKey: string := ",\"currency\":\""
  const BaseCurrencyKey: string := ",\"base_currency\":\""
  const ObjectEnd: string := "}"

  /** One member: its key text, the escaped value and the value's closing quote. */
  function EncodeMember(key: string, value: string): string {
    key + Escape(value) + "\""
  }

  /**
   * `json_encode(['date' => $date->format('d.m.Y'), 'currency' => ...,
   * 'base_currency' => ...])`: the members in that order, no whitespace.
   */
  function EncodeJob(date: Date, currency: string, base: string): (body: string)
    requires date.Valid()
  {
    EncodeMember(DateKey, FormatDmy(date))
      + EncodeMember(CurrencyKey, currency)
      + EncodeMember(BaseCurrencyKey, base)
      + ObjectEnd
  }

  /** The character a backslash escape at the start of `s` stands for, and its length. */
  function EscapeAt(s: string): (r: Option<(char, nat)>)
    requires |s| >= 1 && s[0] == '\\'
    ensures r.Some? ==> 2 <= r.value.1 <= |s|
  {
    if |s| < 2 then None
    else if ShortUnescape(s[1]).Some? then Some((ShortUnescape(s[1]).value, 2))
    else if s[1] == 'u' && |s| >= 6 && IsHex4(s[2..6]) then
      var hi := Hex4Value(s[2..6]);
      if 0xD800 <= hi <= 0xDBFF then
        if |s| >= 12 && s[6] == '\\' && s[7] == 'u' && IsHex4(s[8..12])
           && 0xDC00 <= Hex4Value(s[8..12]) <= 0xDFFF
        then
          var lo := Hex4Value(s[8..12]);
          Some(((0x10000 + (hi - 0xD800) * 0x400 + (lo - 0xDC00)) as char, 12))
        else None
      else if 0xDC00 <= hi <= 0xDFFF then None
      else Some((hi as char, 6))
    else None
  }

  /**
   * Reads the rest of a JSON string literal: the unescaped text up to the
   * closing quote, and what follows that quote. Raw control characters,
   * unknown escapes and lone surrogates are rejected, as `json_decode` does.
   */
  function ReadString(s: string): Option<(string, string)>
    decreases |s|
  {
    if |s| == 0 then None
    else if s[0] == '"' then Some(("", s[1..]))
    else if s[0] == '\\' then
      match EscapeAt(s)
      case None => None
      case Some((c, k)) => Prepend(c, ReadString(s[k..]))
    else if (s[0] as int) < 0x20 then None
    else Prepend(s[0], ReadString(s[1..]))
  }

  function Prepend(c: char, r: Option<(string, string)>): Option<(string, string)> {
    match r
    case None => None
    case Some((text, rest)) => Some(([c] + text, rest))
  }

  function StripPrefix(p: string, s: string): (r: Option<string>)
    ensures r.Some? ==> s == p + r.value
  {
    if |p| <= |s| && s[..|p|] == p then Some(s[|p|..]) else None
  }

  /** A member: its key text, then its string value; yields the value and what follows. */
  function ReadMember(key: string, s: string): Option<(string, string)> {
    var rest :- StripPrefix(key, s);
    ReadString(rest)
  }

  /**
   * The consumer's `json_decode` of the job body, for the layout the
   * producer writes; any other text is not a job.
   */
  function DecodeJob(body: string): Option<JobFields> {
    var (date, rest1) :- ReadMember(DateKey, body);
    var (currency, rest2) :- ReadMember(CurrencyKey, rest1);
    var (base, rest3) :- ReadMember(BaseCurrencyKey, rest2);
    if rest3 == ObjectEnd then Some(JobFields(date, currency, base)) else None
  }

  lemma StripPrefixOf(p: string, t: string)
    ensures StripPrefix(p, p + t) == Some(t)
  {
    assert (p + t)[..|p|] == p;
  }

  lemma ShortEscapeInverse(c: char)
    requires ShortEscape(c).Some?
    ensures ShortUnescape(ShortEscape(c).value) == Some(c)
  {
  }

  /** A `\uxxxx` escape of a code unit outside the surrogate range reads back as that character. */
  lemma ReadUnicodeEscape(c: char, t: string)
    requires c as int <= 0xFFFF
    ensures ShortUnescape('u').None?
    ensures EscapeAt(UnicodeEscape(c as int) + t) == Some((c, 6))
  {
    var n := c as int;
    var s := UnicodeEscape(n) + t;
    Hex4RoundTrip(n);
    assert s[2..6] == Hex4(n);
  }

  lemma ReadSurrogatePair(c: char, t: string)
    requires c as int > 0xFFFF
    ensures EscapeAt(SurrogatePair(c as int) + t) == Some((c, 12))
  {
    var n := c as int;
    var v := n - 0x10000;
    var hi, lo := 0xD800 + v / 0x400, 0xDC00 + v % 0x400;
    var s := SurrogatePair(n) + t;
    Hex4RoundTrip(hi);
    Hex4RoundTrip(lo);
    assert s[2..6] == Hex4(hi);
    assert s[6] == '\\' && s[7] == 'u';
    assert s[8..12] == Hex4(lo);
    assert 0x10000 + (hi - 0xD800) * 0x400 + (lo - 0xDC00) == n;
  }

  /** One escaped character reads back as that character. */
  lemma ReadEscapedChar(c: char, t: string)
    ensures ReadString(EscapeChar(c) + t) == Prepend(c, ReadString(t))
  {
    var n := c as int;
    var s := EscapeChar(c) + t;
    if ShortEscape(c).Some? {
      ShortEscapeInverse(c);
      assert EscapeAt(s) == Some((c, 2));
      assert s[2..] == t;
    } else if n < 0x20 || (0x80 <= n <= 0xFFFF) {
      ReadUnicodeEscape(c, t);
      assert s[6..] == t;
    } else if n < 0x80 {
      assert s[1..] == t;
    } else {
      ReadSurrogatePair(c, t);
      assert s[12..] == t;
    }
  }

  /** The escaped text of `x`, closed by a quote, reads back as `x`. */
  lemma {:induction false} ReadEscapedString(x: string, t: string)
    ensures ReadString(Escape(x) + "\"" + t) == Some((x, t))
    decreases |x|
  {
    if |x| == 0 {
      assert Escape(x) + "\"" + t == "\"" + t;
      assert ("\"" + t)[1..] == t;
    } else {
      var rest := Escape(x[1..]) + "\"" + t;
      assert Escape(x) + "\"" + t == EscapeChar(x[0]) + rest;
      ReadEscapedChar(x[0], rest);
      ReadEscapedString(x[1..], t);
      assert [x[0]] + x[1..] == x;
    }
  }

  lemma ReadMemberOf(key: string, x: string, t: string)
    ensures ReadMember(key, EncodeMember(key, x) + t) == Some((x, t))
  {
    var escaped := Escape(x);
    var rest := escaped + "\"" + t;
    assert EncodeMember(key, x) + t == key + rest;
    StripPrefixOf(key, rest);
    ReadEscapedString(x, t);
  }

  /**
   * Round trip: whatever strings the job carries, the consumer reads back
   * the producer's date text, currency and base currency unchanged.
   */
  lemma DecodeEncodeJob(date: Date, currency: string, base: string)
    requires date.Valid()
    ensures DecodeJob(EncodeJob(date, currency, base)) == Some(JobFields(FormatDmy(date), currency, base))
  {
    var d := FormatDmy(date);
    var tail2 := EncodeMember(BaseCurrencyKey, base) + ObjectEnd;
    var tail1 := EncodeMember(CurrencyKey, currency) + tail2;
    var body := EncodeJob(date, currency, base);
    assert body == EncodeMember(DateKey, d) + tail1;
    assert ReadMember(DateKey, body) == Some((d, tail1)) by { ReadMemberOf(DateKey, d, tail1); }
    assert ReadMember(CurrencyKey, tail1) == Some((currency, tail2)) by { ReadMemberOf(CurrencyKey, currency, tail2); }
    assert ReadMember(BaseCurrencyKey, tail2) == Some((base, ObjectEnd)) by {
      ReadMemberOf(BaseCurrencyKey, base, ObjectEnd);
    }
  }

  lemma PrintableAsIs(c: char)
    requires 'A' <= c <= 'Z' || '0' <= c <= '9' || c == '.' || c == '-'
    ensures EscapeChar(c) == [c]
  {
    assert ShortEscape(c).None?;
  }

  /** Upper-case Latin letters are written as they are. */
  lemma {:induction false} PlainTextUnescaped(s: string)
    requires forall i :: 0 <= i < |s| ==> 'A' <= s[i] <= 'Z'
    ensures Escape(s) == s
  {
    if |s| > 0 {
      PlainTextUnescaped(s[1..]);
      PrintableAsIs(s[0]);
      assert Escape(s) == EscapeChar(s[0]) + Escape(s[1..]);
      assert s == [s[0]] + s[1..];
    }
  }

  /** The `d.m.Y` text of a date holds nothing `json_encode` escapes. */
  lemma {:induction false} DateTextUnescaped(s: string)
    requires forall i :: 0 <= i < |s| ==> IsDigit(s[i]) || s[i] == '.' || s[i] == '-'
    ensures Escape(s) == s
  {
    if |s| > 0 {
      DateTextUnescaped(s[1..]);
      PrintableAsIs(s[0]);
      assert Escape(s) == EscapeChar(s[0]) + Escape(s[1..]);
      assert s == [s[0]] + s[1..];
    }
  }
}

=== FILE: message_broker.dfy ===
/**
 * `RabbitMQMessageBrokerService` reduced to what the service relies on:
 * named FIFO queues. `send` declares the queue and appends a message;
 * `receive` hands the oldest message to the callback once and empties the
 * queue, every message being acknowledged on delivery.
 */
module MessageBroker {

  datatype Broker = Broker(queues: map<string, seq<string>>)

  /** The messages waiting in a queue, oldest first; a queue never declared holds none. */
  function Pending(b: Broker, queue: string): seq<string> {
    if queue in b.queues then b.queues[queue] else []
  }

  /** `send`: `queue_declare` then `basic_publish` through the default exchange. */
  function Send(b: Broker, queue: string, message: string): (b': Broker)
    ensures Pending(b', queue) == Pending(b, queue) + [message]
    ensures forall q :: q != queue ==> Pending(b', q) == Pending(b, q)
  {
    Broker(b.queues[queue := Pending(b, queue) + [message]])
  }

  /**
   * `receive` for a queue that holds a message. The consumer is registered
   * with `no_ack` and no prefetch limit, so the broker pushes every ready
   * message of the queue to it, each acknowledged as it is sent. The callback
   * handles the oldest; `$stopLoop` then ends the wait loop, and the others
   * are lost: they have left the queue but are never handled.
   */
  function Deliver(b: Broker, queue: string): (r: (string, seq<string>, Broker))
    requires |Pending(b, queue)| > 0
    ensures [r.0] + r.1 == Pending(b, queue)
    ensures Pending(r.2, queue) == []
    ensures forall q :: q != queue ==> Pending(r.2, q) == Pending(b, q)
  {
    var waiting := Pending(b, queue);
    (waiting[0], waiting[1..], Broker(b.queues[queue := []]))
  }

  /** With nothing queued before, a message sent is the one handled, and nothing is lost. */
  lemma SendThenDeliver(b: Broker, queue: string, message: string)
    requires Pending(b, queue) == []
    ensures Deliver(Send(b, queue, message), queue).0 == message
    ensures Deliver(Send(b, queue, message), queue).1 == []
  {
  }
}

=== FILE: php_numbers.dfy ===
/**
 * The numeric text handling the provider applies to a feed's `Value` and
 * `Nominal` elements: `str_replace(',', '.', $text)` followed by PHP's
 * `(float)` cast, and the conversion PHP applies when that float is returned
 * from a function declared to return `int`.
 */
module PhpNumbers {
  import opened Wrappers
  import opened Failures
  import opened DateFormat

  /** `str_replace(',', '.', s)`. */
  function CommaToDot(s: string): (r: string)
    ensures |r| == |s|
    ensures forall i :: 0 <= i < |s| ==> r[i] == (if s[i] == ',' then '.' else s[i])
  {
    if |s| == 0 then [] else [if s[0] == ',' then '.' else s[0]] + CommaToDot(s[1..])
  }

  function Pow10(n: nat): (p: nat)
    ensures p >= 1
  {
    if n == 0 then 1 else 10 * Pow10(n - 1)
  }

  /** The value of the digits after a decimal point. */
  function FractionValue(ds: string): real
    requires AllDigits(ds)
  {
    DigitsValue(ds) as real / Pow10(|ds|) as real
  }

  predicate IsSpace(c: char) {
    c == ' ' || c == '\t' || c == '\n' || c == '\r' || c == '\U{0B}' || c == '\U{0C}'
  }

  function DropSpaces(s: string): (r: string)
    ensures |r| <= |s|
    ensures |r| > 0 ==> !IsSpace(r[0])
  {
    if |s| > 0 && IsSpace(s[0]) then DropSpaces(s[1..]) else s
  }

  /** How many leading characters of `s` are digits. */
  function LeadingDigits(s: string): (n: nat)
    ensures n <= |s| && AllDigits(s[..n])
  {
    DigitRun(s, |s|)
  }

  /** The unsigned decimal `digits[.digits]` at the start of `u`, ignoring the rest. */
  function UnsignedPrefixValue(u: string): (x: real)
    ensures x >= 0.0
  {
    var i := LeadingDigits(u);
    var after := u[i..];
    var frac :=
      if |after| > 0 && after[0] == '.' then
        var f := after[1..];
        FractionValue(f[..LeadingDigits(f)])
      else 0.0;
    DigitsValue(u[..i]) as real + frac
  }

  /**
   * PHP's `(float)` cast of a string: leading whitespace is skipped, an
   * optional sign is read, then the longest decimal prefix; anything after it
   * is ignored, and text with no numeric prefix converts to 0.
   */
  function FloatCast(s: string): (x: real)
    ensures |DropSpaces(s)| > 0 && DropSpaces(s)[0] == '-' ==> x <= 0.0
    ensures !(|DropSpaces(s)| > 0 && DropSpaces(s)[0] == '-') ==> x >= 0.0
  {
    var t := DropSpaces(s);
    if |t| > 0 && t[0] == '-' then -UnsignedPrefixValue(t[1..])
    else if |t| > 0 && t[0] == '+' then UnsignedPrefixValue(t[1..])
    else UnsignedPrefixValue(t)
  }

  /** Truncation toward zero, the float-to-int conversion of PHP. */
  function TruncateToInt(x: real): (n: int)
    ensures x >= 0.0 ==> n as real <= x < n as real + 1.0
    ensures x < 0.0 ==> n as real - 1.0 < x <= n as real
  {
    if x >= 0.0 then x.Floor else -((-x).Floor)
  }

  /** Truncation is symmetric about zero and keeps whole numbers. */
  lemma TruncationTowardZero(x: real, n: int)
    ensures TruncateToInt(-x) == -TruncateToInt(x)
    ensures TruncateToInt(n as real) == n
  {
  }

  /** `PHP_INT_MIN` and `PHP_INT_MAX` of a 64-bit build. */
  const PhpIntMin: int := -0x8000_0000_0000_0000
  const PhpIntMax: int := 0x7FFF_FFFF_FFFF_FFFF

  /** A float PHP can convert to `int`: from `PHP_INT_MIN` up to, but excluding, 2^63. */
  predicate FitsInt(x: real) {
    PhpIntMin as real <= x < (PhpIntMax + 1) as real
  }

  /**
   * A float returned where `int` is declared, in a file without
   * `strict_types`: truncated toward zero when it fits the `int` range,
   * otherwise a `TypeError` ("Return value must be of type int, float
   * returned").
   */
  function ReturnAsInt(x: real): (r: Result<int, Error>)
    ensures r.Success? <==> FitsInt(x)
    ensures r.Failure? ==> r.error == TypeError
    ensures r.Success? ==> PhpIntMin <= r.value <= PhpIntMax
    ensures r.Success? && x >= 0.0 ==> r.value as real <= x < r.value as real + 1.0
    ensures r.Success? && x < 0.0 ==> r.value as real - 1.0 < x <= r.value as real
  {
    if FitsInt(x) then Success(TruncateToInt(x)) else Failure(TypeError)
  }

  lemma LeadingDigitsOfDigits(a: string, t: string)
    requires AllDigits(a)
    requires |t| == 0 || !IsDigit(t[0])
    ensures LeadingDigits(a + t) == |a|
    ensures (a + t)[..|a|] == a && (a + t)[|a|..] == t
  {
    DigitRunStops(a, t, |a + t|);
  }

  lemma {:induction false} DigitRunStops(a: string, t: string, max: nat)
    requires AllDigits(a) && |a| <= max
    requires |t| == 0 || !IsDigit(t[0])
    ensures DigitRun(a + t, max) == |a|
    decreases |a|
  {
    if |a| > 0 {
      assert (a + t)[1..] == a[1..] + t;
      DigitRunStops(a[1..], t, max - 1);
    }
  }

  /**
   * A feed number written with a decimal comma, such as "75,4323", converts
   * to the value it spells: the whole part plus the fraction.
   */
  lemma DecimalCommaValue(a: string, b: string)
    requires AllDigits(a) && AllDigits(b)
    ensures FloatCast(CommaToDot(a + "," + b)) == DigitsValue(a) as real + FractionValue(b)
  {
    var s := a + "." + b;
    assert CommaToDot(a + "," + b) == s;
    DecimalPrefixValue(a, b);
    assert s[0] != '-' && s[0] != '+' && !IsSpace(s[0]);
    assert DropSpaces(s) == s;
  }

  /** `digits.digits` reads as its whole part plus its fraction. */
  lemma DecimalPrefixValue(a: string, b: string)
    requires AllDigits(a) && AllDigits(b)
    ensures UnsignedPrefixValue(a + "." + b) == DigitsValue(a) as real + FractionValue(b)
  {
    var s := a + "." + b;
    assert s == a + ("." + b);
    LeadingDigitsOfDigits(a, "." + b);
    var after := s[|a|..];
    assert after == "." + b && after[1..] == b;
    LeadingDigitsOfDigits(b, "");
    assert b + "" == b;
    assert b[..LeadingDigits(b)] == b;
  }

  /** A plain run of digits, such as a nominal "100", converts to its value. */
  lemma IntegerTextValue(a: string)
    requires AllDigits(a)
    ensures FloatCast(CommaToDot(a)) == DigitsValue(a) as real
  {
    assert CommaToDot(a) == a;
    LeadingDigitsOfDigits(a, "");
    assert a + "" == a;
    assert a[..|a|] == a && a[|a|..] == [];
    assert UnsignedPrefixValue(a) == DigitsValue(a) as real;
    assert DropSpaces(a) == a;
    assert |a| == 0 || (a[0] != '-' && a[0] != '+');
  }
}

=== FILE: rate_cache.dfy ===
/**
 * The provider's use of its cache adapter: look the key up, return a live
 * entry, otherwise compute the rate and, only when that succeeds, store it
 * for `RATE_CACHE_TTL` seconds. The adapter becomes a plain map from key to
 * entry and the clock an explicit `now` (in seconds).
 */
module RateCache {
  import opened Wrappers
  import opened Failures

  /** `RATE_CACHE_TTL`, in seconds. */
  const RateCacheTtl: int := 3600

  datatype Entry = Entry(value: real, expiresAt: int)

  type Cache = map<string, Entry>

  /** `$cachedItem->isHit()`: the key is stored and has not expired yet. */
  predicate IsHit(c: Cache, key: string, now: int) {
    key in c && now < c[key].expiresAt
  }

  /**
   * `cacheRate`: stores `rate` under `key`, to expire `RATE_CACHE_TTL`
   * seconds from `now`, replacing whatever was there.
   */
  function CacheRate(c: Cache, key: string, rate: real, now: int): (c': Cache)
    ensures IsHit(c', key, now) && c'[key] == Entry(rate, now + RateCacheTtl)
    ensures forall k :: k != key ==> (k in c' <==> k in c)
    ensures forall k :: k != key && k in c ==> c'[k] == c[k]
  {
    c[key := Entry(rate, now + RateCacheTtl)]
  }

  /** What one cached lookup returns, leaves in the cache, and whether it computed. */
  datatype Lookup = Lookup(result: Result<real, Error>, cache: Cache, computed: bool)

  /**
   * The get-or-compute shape of `getRate`. `compute` stands for the feed
   * lookup; it is invoked on a miss only.
   */
  function GetOrCompute(c: Cache, now: int, key: string, compute: () -> Result<real, Error>): (r: Lookup)
    ensures r.computed <==> !IsHit(c, key, now)
    ensures !r.computed ==> r.result == Success(c[key].value) && r.cache == c
    ensures r.computed ==> r.result == compute()
    ensures r.result.Failure? ==> r.cache == c
    ensures r.result.Success? ==> IsHit(r.cache, key, now) && r.cache[key].value == r.result.value
    ensures r.computed && r.result.Success? ==> r.cache[key].expiresAt == now + RateCacheTtl
    ensures forall k :: k != key ==> (k in r.cache <==> k in c)
    ensures forall k :: k != key && k in c ==> r.cache[k] == c[k]
  {
    if IsHit(c, key, now) then
      Lookup(Success(c[key].value), c, false)
    else
      match compute()
      case Success(rate) => Lookup(Success(rate), CacheRate(c, key, rate, now), true)
      case Failure(e) => Lookup(Failure(e), c, true)
  }

  /**
   * Two lookups of one key within the time-to-live of a successful first
   * lookup compute at most once, and the second returns what the first did.
   */
  lemma ComputeAtMostOnceWithinTtl(
    c: Cache, now: int, later: int, key: string,
    first: () -> Result<real, Error>, second: () -> Result<real, Error>)
    requires GetOrCompute(c, now, key, first).result.Success?
    requires now <= later
    requires GetOrCompute(c, now, key, first).computed ==> later < now + RateCacheTtl
    requires !GetOrCompute(c, now, key, first).computed ==> later < c[key].expiresAt
    ensures !GetOrCompute(GetOrCompute(c, now, key, first).cache, later, key, second).computed
    ensures GetOrCompute(GetOrCompute(c, now, key, first).cache, later, key, second).result
         == GetOrCompute(c, now, key, first).result
  {
    var r1 := GetOrCompute(c, now, key, first);
    assert r1.cache[key].expiresAt > later;
  }

  /** An entry whose expiry has passed is never returned: the rate is computed afresh. */
  lemma ExpiredEntryRecomputed(c: Cache, now: int, key: string, compute: () -> Result<real, Error>)
    requires key in c && c[key].expiresAt <= now
    ensures GetOrCompute(c, now, key, compute).computed
    ensures GetOrCompute(c, now, key, compute).result == compute()
  {
  }
}

=== FILE: trading_days.dfy ===
/**
 * `CurrencyService::getPreviousDate`: the previous trading day. Starting
 * from a copy of the date (the caller's `DateTime` is cloned, so it is left
 * as it was), step back one day, then keep stepping back while the ISO
 * weekday is 6 (Saturday) or 7 (Sunday).
 */
module TradingDays {
  import opened Calendar

  /** The `while ($previousDate->format('N') >= 6)` loop: step back over a weekend. */
  function SkipWeekendBack(p: Date): (r: Date)
    requires p.Valid()
    ensures r.Valid() && !IsWeekend(r)
    ensures DayNumber(p) - DayNumber(r) == (if IsoWeekday(p) == 7 then 2 else if IsoWeekday(p) == 6 then 1 else 0)
    ensures !IsWeekend(p) ==> r == p
    ensures forall n :: DayNumber(r) < n <= DayNumber(p) ==> WeekdayOfDayNumber(n) >= 6
    decreases IsoWeekday(p)
  {
    if IsoWeekday(p) >= 6 then
      PrevDayWeekday(p);
      SkipWeekendBack(PrevDay(p))
    else
      p
  }

  /**
   * The previous trading day: a weekday strictly before `d`, at most three
   * days back, with only Saturdays and Sundays in between.
   */
  function GetPreviousDate(d: Date): (r: Date)
    requires d.Valid()
    ensures r.Valid() && !IsWeekend(r)
    ensures DayNumber(d) - 3 <= DayNumber(r) < DayNumber(d)
    ensures forall e: Date :: e.Valid() && DayNumber(r) < DayNumber(e) < DayNumber(d) ==> IsWeekend(e)
  {
    SkipWeekendBack(PrevDay(d))
  }

  /** No weekday is skipped: any weekday before `d` is no later than the result. */
  lemma LatestWeekdayBefore(d: Date, e: Date)
    requires d.Valid() && e.Valid()
    requires DayNumber(e) < DayNumber(d) && !IsWeekend(e)
    ensures DayNumber(e) <= DayNumber(GetPreviousDate(d))
  {
  }

  lemma WeekdayBack(n: int, k: int)
    requires 1 <= k <= 3
    ensures WeekdayOfDayNumber(n - k)
         == (if WeekdayOfDayNumber(n) > k then WeekdayOfDayNumber(n) - k else WeekdayOfDayNumber(n) - k + 7)
  {
  }

  /**
   * The result by weekday of the input: a Monday goes back three days to
   * Friday, Tuesday to Friday go back one day, a Saturday one day and a
   * Sunday two days, both to Friday.
   */
  lemma PreviousDateByWeekday(d: Date)
    requires d.Valid()
    ensures var back := DayNumber(d) - DayNumber(GetPreviousDate(d));
      && (IsoWeekday(d) == 1 ==> back == 3 && IsoWeekday(GetPreviousDate(d)) == 5)
      && (2 <= IsoWeekday(d) <= 5 ==> back == 1 && IsoWeekday(GetPreviousDate(d)) == IsoWeekday(d) - 1)
      && (IsoWeekday(d) == 6 ==> back == 1 && IsoWeekday(GetPreviousDate(d)) == 5)
      && (IsoWeekday(d) == 7 ==> back == 2 && IsoWeekday(GetPreviousDate(d)) == 5)
  {
    var n := DayNumber(d);
    var r := GetPreviousDate(d);
    PrevDayWeekday(d);
    var w := IsoWeekday(d);
    assert DayNumber(r) == n - (if w == 1 then 3 else if w == 7 then 2 else 1);
    if w == 1 {
      WeekdayBack(n, 3);
    } else if w == 7 {
      WeekdayBack(n, 2);
    } else {
      WeekdayBack(n, 1);
    }
  }

  /** The example of a Monday: 2024-03-11 gives Friday 2024-03-08. */
  lemma MondayExample()
    ensures GetPreviousDate(Date(2024, 3, 11)) == Date(2024, 3, 8)
  {
    assert IsWeekend(Date(2024, 3, 10));
    assert IsWeekend(Date(2024, 3, 9));
    assert !IsWeekend(Date(2024, 3, 8));
  }

  /** Saturday 2022-01-01 gives Friday 2021-12-31, across the year boundary. */
  lemma NewYearExample()
    ensures GetPreviousDate(Date(2022, 1, 1)) == Date(2021, 12, 31)
  {
    assert !IsWeekend(Date(2021, 12, 31));
  }
}

=== FILE: wrappers.dfy ===
/** Failure-compatible Option and Result types used across the model. */
module Wrappers {

  datatype Option<+T> = None | Some(value: T) {

    predicate IsFailure() {
      None?
    }

    function PropagateFailure<U>(): Option<U>
      requires None?
    {
      None
    }

    function Extract(): T
      requires Some?
    {
      value
    }

    function GetOr(default: T): T {
      match this
      case Some(v) => v
      case None => default
    }
  }

  /** The outcome of a PHP call: a returned value or a thrown failure. */
  datatype Result<+T, +E> = Success(value: T) | Failure(error: E) {

    predicate IsFailure() {
      Failure?
    }

    function PropagateFailure<U>(): Result<U, E>
      requires Failure?
    {
      Failure(error)
    }

    function Extract(): T
      requires Success?
    {
      value
    }
  }
}
